=== FILE: README.md ===
# Sabre-style `*I` itinerary lines, modelled in Dafny

This site turns flight-segment records into the text of a GDS itinerary display, `*I`.
Each flight becomes one line: ordinal, flight designator, date, city pair with status, times, day offset and markers.
The code contains two independent dialects of the formatter and a set of display helpers for the itinerary cards.
This project models all three as pure functions over `seq<char>` and `int`, and proves their contracts and the properties that relate them.

- `docs/demo-formatter.js` starts from wall-clock parts in a time zone. It yields `hhmmA` times, `DDMMM W` dates, the calendar-day offset `+1`/`-1`, the booking class, the designator and the whole line.
  - `GdsTime` (`time.dfy`): the clock arithmetic.
  - `GdsCalendar` (`calendar.dfy`): the weekday and month tables, `Date.UTC` as a day count, and the offset token.
  - `GdsZoned` (`zoned.dfy`): `getZonedDateTimeParts` after `Intl`, `calculateArrivalOffset` and `formatDateToken`.
  - `GdsLine` (`line.dfy`): booking class, designator, the pieces of a line and `formatSegmentsToI`.
  - `GdsLineExample` (`example.dfy`): the Turkish Airlines 32 line from Atlanta to Istanbul, worked end to end.
- `docs/sandbox/kayak/kayak-formatter.js` works from display strings such as `"Thu, Nov 6"` and `"4:15 pm"`. It has its own weekday table and numbers only the lines it emits.
  - `KayakFormatter` (`kayak.dfy`) models this dialect.
  - `KayakLineExample` (`kayak_example.dfy`) proves the first outbound flight of the sample data.
- `docs/demo.js` holds the card helpers, modelled in `DemoDisplay` (`display.dfy`): place label, title case, the card's booking class, the duration chip and the arrival sentences.
- `Options` and `Text` (`text.dfy`) model the JavaScript built-ins the code relies on:
  - `trim` with the `\s` white-space set;
  - `toUpperCase` and `toLowerCase`;
  - `padStart`;
  - `parseInt(s, 10)`, which reads an optional sign and the longest digit prefix after leading white space;
  - `split(/\s+/)` followed by `filter(Boolean)`;
  - `join`;
  - `replace(/^0+(\d)/, '$1')`.

Absent or falsy string fields are the empty string. Values that can be `null`, `NaN` or missing are `Option`s.

`Intl.DateTimeFormat` and `new Date` are not modelled. For each endpoint, the model takes as input the text parts that `formatToParts` yields, in a `WallClock` record. An endpoint whose instant cannot be formatted, where `Intl` throws a `RangeError`, has no clock. `SegmentLine` and `FormatSegmentsToI` then return `None`, which stands for the exception.

Two behaviours of the code are worth knowing before reading the model:
- **Designator spacing.** `formatFlightDesignator` puts a space between carrier and number only when the trimmed number is shorter than four characters (docs/demo-formatter.js:169-172). So `TK` with `032` gives `TK 032J` and `LH` with `4391` gives `LH4391J` (`GdsLine.DesignatorExamples`).
- **Gaps in the numbering.** The demo formatter numbers a line by its segment's position in the input, so a skipped segment leaves a gap (`GdsLine.GapKeepsPosition`). The kayak formatter counts only emitted lines (`KayakFormatter.KayakLines`).

## Model

| member | source | states |
|---|---|---|
| GdsTime.NormalizeMinutes | docs/demo-formatter.js:14 | the double remainder with JavaScript's sign-of-dividend `%` is the mathematical residue modulo 1440, in 0..1439, for negative inputs too |
| GdsTime.MinutesToGds | docs/demo-formatter.js:12-25 | five characters: the 12-hour hour of the day-reduced minutes zero-padded to two digits, the zero-padded minute, and `P` exactly when the reduced time is noon or later |
| GdsTime.MinutesToGdsFields | docs/demo-formatter.js:14-24 | read back as numbers, the hour field is in 1..12 and agrees with the 24-hour hour modulo 12; the minute field is the minute of the hour; the letter is `P` iff the reduced minute is at least 720, else `A` |
| GdsTime.MidnightAndNoon | docs/demo-formatter.js:17-21 | midnight is `1200A`, noon is `1200P`, and one minute before midnight wraps to `1159P` |
| GdsTime.MinutesToGdsPeriodic | docs/demo-formatter.js:14 | adding any whole number of days, negative included, leaves the token unchanged |
| GdsTime.TwelveHourToMinutes | docs/demo-formatter.js:77-87 | for hour 1..12, minute 0..59 and AM/PM: minutes in 0..1439, the minute preserved, noon or later iff PM, and the clock hour recovered |
| GdsTime.TwelveHourRoundTrip | docs/demo-formatter.js:77-87 | feeding the minutes to `minutesToGds` reproduces the padded hour, the padded minute and the period letter |
| GdsTime.FormatGdsTime | docs/demo-formatter.js:27-34 | an empty value gives the empty string |
| GdsTime.FormatGdsTimeTrimmed | docs/demo-formatter.js:29-33 | the result never begins or ends with white space |
| GdsTime.ZeroHourBecomesNoon | docs/demo-formatter.js:30-31 | a `00` hour becomes `12`: `0015A` gives `1215A` |
| GdsTime.PaddedHourLosesZero | docs/demo-formatter.js:33 | `0950P` gives `950P` |
| GdsTime.UnpaddedTokenKept | docs/demo-formatter.js:27-34 | every trimmed token that does not start with `0` is unchanged, whatever its length and the case of its letter |
| GdsTime.ShortTokenOfMinutes | docs/demo-formatter.js:27-34 | applied to any `minutesToGds` token: the unpadded clock hour, the padded minute and the period letter; 4 or 5 characters; never a leading zero |
| GdsTime.FormatGdsTimeIdempotent | docs/demo-formatter.js:27-34 | formatting a formatted time changes nothing, for every input string |
| GdsZoned.MinutesOfClock | docs/demo-formatter.js:77-87 | `null` exactly when the hour or the minute is `NaN`; for a valid 12-hour reading, in 0..1439 with the minute preserved |
| GdsZoned.ZonedPartsOf | docs/demo-formatter.js:57-102 | month and weekday are at most three characters; the weekday code is empty iff the weekday is not one of the seven names; the time token is empty iff the minutes are `null`, and otherwise five characters; a month index names its month; a day number needs a day |
| GdsZoned.ZonedTimeToken | docs/demo-formatter.js:61-94 | a two-digit `Intl` hour 01..12, a two-digit minute and AM/PM come out as the same reading in `hhmmA` form |
| GdsCalendar.DowCode | docs/demo-formatter.js:8 | one letter for each of the seven weekdays; the empty string exactly for any other text |
| GdsCalendar.DowCodeRoundTrip | docs/demo-formatter.js:8 | every weekday's code leads back to that weekday, and every code back to itself |
| GdsCalendar.DowCodeInjective | docs/demo-formatter.js:8 | no two weekdays share a code, so THU (`Q`) and SAT (`J`) cannot be confused with SUN or TUE |
| GdsCalendar.MonthIndex | docs/demo-formatter.js:9 | defined exactly for the twelve month names, and the index names its month |
| GdsCalendar.MonthIndexOfName | docs/demo-formatter.js:9 | every index 0..11 is the index of its own name |
| GdsCalendar.UtcDay | docs/demo-formatter.js:116-117 | `Date.UTC` as a day count: a defined result lies within the 10^8-day range of `Date` |
| GdsCalendar.EpochIsDayZero | docs/demo-formatter.js:116 | 1 January 1970 is day 0, and year 70 is read as 1970 |
| GdsCalendar.DayFromYearStep | docs/demo-formatter.js:116-117 | consecutive years start 365 or 366 days apart, by the Gregorian leap rule |
| GdsCalendar.MonthRollover | docs/demo-formatter.js:116-118 | the last day of a month is one day before the first of the next |
| GdsCalendar.YearRollover | docs/demo-formatter.js:116-118 | 31 December is one day before 1 January of the next year |
| GdsCalendar.OffsetToken | docs/demo-formatter.js:119-120 | empty iff the difference is zero; starts with `+` after the departure day and with `-` before it |
| GdsCalendar.OffsetTokenRoundTrip | docs/demo-formatter.js:119-120 | `parseInt` reads every non-zero difference back from its token |
| GdsCalendar.OffsetTokenNegate | docs/demo-formatter.js:119-120 | negating the difference flips the sign character and keeps the digits |
| GdsCalendar.RoundDays | docs/demo-formatter.js:126 | `Math.round` of a millisecond difference in days: the nearest day, with halves rounding up |
| GdsCalendar.RoundDaysAtHalf | docs/demo-formatter.js:126-128 | half a day later is `+1`, half a day earlier is the same day |
| GdsZoned.CalculateArrivalOffset | docs/demo-formatter.js:105-132 | with complete date parts, the token of the calendar-day difference (`NaN` outside the `Date` range); otherwise, when both instants are given, `NaN` if either does not parse and the token of the rounded instant difference if both do; otherwise, with an instant missing, empty |
| GdsZoned.ArrivalOffsetSwap | docs/demo-formatter.js:105-121 | swapping departure and arrival flips the sign of the offset |
| GdsZoned.ArrivalNextDay | docs/demo-formatter.js:105-121 | arriving on the calendar day after departure is `+1`, across month and year ends, for years 100 to 200000 |
| GdsZoned.NextDateCivil | docs/demo-formatter.js:116-117 | the calendar day after a date, across month and year ends, is the next civil day number |
| GdsZoned.DayOfPartsIsCivil | docs/demo-formatter.js:116-117 | from year 100 on, the `Date.UTC` day count is the civil day number |
| GdsZoned.FormatDateToken | docs/demo-formatter.js:134-143 | none for missing parts; `DDMMM W` with a space before the weekday code when all three are known; `DDMMM` without a code; whichever of day and month is present when one is missing |
| GdsZoned.DateTokenWords | docs/demo-formatter.js:137 | a token with a code splits into exactly two words, the date and the code |
| GdsLine.CabinFallback | docs/demo-formatter.js:1-6 | a one-letter class for FIRST, BUSINESS, PREMIUM and ECONOMY only |
| Text.UpperTrim | docs/demo-formatter.js:36-38 | the cabin key (and, by the same idiom at line 147, the explicit booking class) has no surrounding white space, and is empty exactly when the input is blank |
| GdsLine.ResolveBookingClass | docs/demo-formatter.js:145-164 | never empty; a short first-class flight under the option takes the business fallback or `J`, even over an explicit class; otherwise the explicit class trimmed and upper-cased; otherwise the cabin's letter; otherwise `Y` |
| GdsLine.FormatFlightDesignator | docs/demo-formatter.js:166-173 | the designator has no surrounding white space |
| GdsLine.DesignatorWords | docs/demo-formatter.js:169-172 | a number shorter than four characters stands apart from the carrier and a longer one is glued to it; the class is always glued to the number |
| GdsLine.DesignatorExamples | docs/demo-formatter.js:169-172 | `TK`,`032`,`J` gives `TK 032J`; `LH`,`4391`,`J` gives `LH4391J` |
| GdsLine.Carrier | docs/demo-formatter.js:180 | the carrier is never empty, `XX` at worst |
| GdsLine.Ordinal | docs/demo-formatter.js:185 | the number index+1: a space and one digit for the first nine lines, the plain numeral from the tenth on |
| GdsLine.Annotation | docs/demo-formatter.js:210-219 | at most one annotation; the codeshare note whenever the option is on and a code exists; otherwise present iff the operating carrier is given and differs from the upper-cased carrier |
| GdsLine.TailPieces | docs/demo-formatter.js:197-223 | after the times, in this order: the offset exactly when non-empty, `/DC` with the carrier, `/E` exactly unless e-ticketing is `false`, the annotation, and the free text last exactly when non-empty; nothing else |
| GdsLine.Pieces | docs/demo-formatter.js:180-223 | the first six pieces are the ordinal, the designator of carrier, flight number and resolved class, the date token, the city field, and the two times; the rest are the trailing fields |
| GdsLine.LineFrame | docs/demo-formatter.js:185-225 | a line starts with its ordinal and a space, and with free text it ends with a space and that text |
| GdsLine.SegmentLine | docs/demo-formatter.js:183-225 | a line exists iff both instants can be formatted |
| Text.Positions | docs/demo-formatter.js:178-179 | the positions of the entries a test keeps: all of them, each once, increasing; as `Positions(segs, Kept)`, the segments with both a departure and an arrival |
| GdsLine.Collect | docs/demo-formatter.js:178-226 | for any line renderer: one line per kept segment in input order, rendered with its input position; none iff the renderer fails on some kept segment |
| GdsLine.Lines | docs/demo-formatter.js:178-226 | one line per kept segment in input order, each numbered by its input position; none iff some kept segment's instant cannot be formatted |
| GdsLine.LinesNoneExtends | docs/demo-formatter.js:183-184 | once one segment throws, the whole call throws |
| GdsLine.GapKeepsPosition | docs/demo-formatter.js:178-185 | segments 1 and 3 around a segment without an arrival give two lines numbered ` 1` and ` 3` |
| GdsLine.FormatSegmentsToI | docs/demo-formatter.js:175-228 | `''` for a non-array; otherwise throws iff some line does, and the lines joined by newlines |
| GdsLineExample.TkPieces | docs/demo-formatter.js:191-208 | the TK 32 segment has nine pieces in the order ordinal, designator, date, city pair, two times, offset, `/DC`, `/E` |
| GdsLineExample.TkLine | docs/demo-formatter.js:175-228 | the line is ` 1 TK 032J 04JUN T ATLIST*SS1 950P 340P +1 /DCTK /E` |
| GdsLineExample.TkOffset | docs/demo-formatter.js:105-121 | 4 June to 5 June 2024 is `+1` |
| GdsLineExample.TkDate | docs/demo-formatter.js:137 | the date token is `04JUN T` |
| GdsLineExample.ClockTime | docs/demo-formatter.js:61-94 | an `Intl` clock of `hh`,`mm` and AM or PM gives the token `hhmmA` or `hhmmP` |
| KayakFormatter.DayOfWeekCode | docs/sandbox/kayak/kayak-formatter.js:1-9 | one letter for each of the seven weekdays, from `A` for SUN to `J` for SAT; empty for any other text |
| KayakFormatter.DayOfWeekCodeRoundTrip | docs/sandbox/kayak/kayak-formatter.js:1-9 | every weekday's code leads back to that weekday, and every code back to itself |
| KayakFormatter.DayOfWeekCodeInjective | docs/sandbox/kayak/kayak-formatter.js:1-9 | the table is injective |
| KayakFormatter.CodesAcrossDialects | docs/sandbox/kayak/kayak-formatter.js:1-9 | the two dialects' codes agree exactly on THU, FRI and SAT |
| KayakFormatter.WeekdayCode | docs/sandbox/kayak/kayak-formatter.js:38 | at most one letter; empty iff the weekday is; an unknown weekday falls back to its first letter |
| KayakFormatter.CommaFields | docs/sandbox/kayak/kayak-formatter.js:30 | the first two comma-separated fields, neither holding a comma; the text and nothing when there is no comma |
| KayakFormatter.CommaFieldsOf | docs/sandbox/kayak/kayak-formatter.js:30 | comma-free fields are split back apart, whatever follows a second comma |
| KayakFormatter.ParseDateParts | docs/sandbox/kayak/kayak-formatter.js:26-40 | `null` exactly for empty or blank text; otherwise a month of at most three and a code of at most one character, a day of at least two characters when present, and no white space in any field |
| KayakFormatter.ParseRenderedDate | docs/sandbox/kayak/kayak-formatter.js:26-40 | `"Www, Mmm d"` gives the day zero-padded to two digits, the month's first three letters upper-cased, and the weekday's code |
| KayakFormatter.FormatDateToken | docs/sandbox/kayak/kayak-formatter.js:42-48 | empty for `null`; otherwise day then month, either possibly empty |
| KayakFormatter.DateTokenSplit | docs/sandbox/kayak/kayak-formatter.js:45 | a two-character day and the month can be read back off the token |
| KayakFormatter.MatchClock | docs/sandbox/kayak/kayak-formatter.js:53 | a match has one or two hour digits, two minute digits and meridiem `A` or `P`, and the text is then exactly hour, `:`, minute, white space and `am`/`pm` in any case |
| KayakFormatter.MatchClockOf | docs/sandbox/kayak/kayak-formatter.js:53 | every `h:mm am/pm` text with any white-space gap matches with exactly its groups |
| KayakFormatter.KayakHour | docs/sandbox/kayak/kayak-formatter.js:57-65 | the hour is at least 1; an unreadable or non-positive hour becomes 12, 1..12 is kept, and any hour past 12 (up to 99 from the pattern) loses twelve hours |
| KayakFormatter.FormatTime | docs/sandbox/kayak/kayak-formatter.js:50-67 | blank gives empty; non-matching text comes back trimmed and upper-cased; a match ends in its minute and meridiem and never starts with `0` |
| KayakFormatter.FormatTimeOfClock | docs/sandbox/kayak/kayak-formatter.js:50-67 | a matching clock text prints the adjusted hour without padding, the minute and the meridiem |
| KayakFormatter.TimesAcrossDialects | docs/sandbox/kayak/kayak-formatter.js:50-67 | for every minute of the day, the kayak formatter reading the clock text prints what the demo formatter prints |
| KayakFormatter.TimeExamples | docs/sandbox/kayak/kayak-formatter.js:50-67 | `4:15 pm`→`415P`, `9:05 am`→`905A`, `12:40 pm`→`1240P`, `13:05 pm`→`105P`, `0:30am`→`1230A` |
| KayakFormatter.NotAClock | docs/sandbox/kayak/kayak-formatter.js:54-56 | `noon` is returned upper-cased |
| KayakFormatter.ArrivalPieces | docs/sandbox/kayak/kayak-formatter.js:86-105 | nothing unless both date tokens are known and differ; otherwise the arrival token, followed by its code when there is one |
| KayakFormatter.FlightToken | docs/sandbox/kayak/kayak-formatter.js:93 | never empty, always ends in `J`, no surrounding white space |
| KayakFormatter.LineTokens | docs/sandbox/kayak/kayak-formatter.js:90-109 | at least five tokens, none empty: ordinal, `LH`, the flight, then the non-empty middle fields in order, ending `/DCLH`, `/E` |
| KayakFormatter.LineEnds | docs/sandbox/kayak/kayak-formatter.js:90-109 | the line starts `N LH ` and ends ` /DCLH /E` |
| KayakFormatter.LineWords | docs/sandbox/kayak/kayak-formatter.js:109 | with space-free fields, splitting the line on white space gives its tokens back, so there are no double spaces |
| KayakFormatter.ArrivalDateOnLine | docs/sandbox/kayak/kayak-formatter.js:86-105 | the arrival date is on the line when shown; otherwise nothing follows the times |
| KayakFormatter.Flights | docs/sandbox/kayak/kayak-formatter.js:72-73 | one flight per present non-layover entry, in input order: the j-th is the entry at the j-th such position |
| Text.CompactIsFilter | docs/sandbox/kayak/kayak-formatter.js:109 | `filter(Boolean)` keeps exactly the non-empty fields, in order, each once: the j-th kept field is the field at the j-th non-empty position |
| Text.CompactMembers | docs/sandbox/kayak/kayak-formatter.js:109 | a kept field is a non-empty input field, and every non-empty input field is kept |
| KayakFormatter.KayakLines | docs/sandbox/kayak/kayak-formatter.js:69-111 | one line per flight, the j-th numbered j+1 |
| KayakFormatter.Numbered | docs/sandbox/kayak/kayak-formatter.js:69-111 | for any renderer, one line per flight in order, the j-th numbered j+1, layover notices skipped without using a number |
| KayakFormatter.FormatSegmentsToI | docs/sandbox/kayak/kayak-formatter.js:69-114 | the loop's output is the flights' lines joined by newlines |
| KayakLineExample.FirstOutbound | docs/sandbox/kayak/kayak-formatter.js:75-109 | flight 439 from DFW on `Thu, Nov 6` at `4:15 pm` to FRA on `Fri, Nov 7` at `9:05 am` is `1 LH 439J 06NOV Q DFWFRA*SS1 415P 905A 07NOV F /DCLH /E` |
| KayakLineExample.FlightsAroundGap | docs/sandbox/kayak/kayak-formatter.js:71-73 | a layover or missing entry between two flights leaves no gap: the second flight is the second line |
| DemoDisplay.FormatPlace | docs/demo.js:12-20 | empty for a missing point; `City (AAA)` when both trimmed fields are present, otherwise whichever is; never surrounded by white space |
| DemoDisplay.PlaceRoundTrip | docs/demo.js:12-20 | a place label with both fields reads back to the same city and airport |
| DemoDisplay.Capitalize | docs/demo.js:27 | the first character upper-cased and every other character lower-cased, the length kept, and a word stays a word |
| DemoDisplay.TitleCaseWords | docs/demo.js:22-29 | the words of the result are the capitalized words of the input, and the result is exactly those words joined by single spaces |
| DemoDisplay.TitleCaseIdempotent | docs/demo.js:22-29 | title-casing twice is title-casing once |
| DemoDisplay.CardBookingClass | docs/demo.js:35-49 | never empty; the explicit class trimmed and upper-cased, else the cabin letter, else `Y` |
| DemoDisplay.CardAgreesWithLine | docs/demo.js:35-49 | the card and the line formatter agree except on a short first-class flight sold as business |
| DemoDisplay.FormatDuration | docs/demo.js:51-58 | none when not a number; `Nm` under an hour, `0m` included; `Hh` on the hour |
| DemoDisplay.DurationRoundTrip | docs/demo.js:51-58 | every non-negative duration reads back from its chip, `Hh Mm` included |
| DemoDisplay.ParseHoursAndMinutes | docs/demo.js:51-58 | an `Hh Mm` chip reads back as 60·H+M minutes |
| DemoDisplay.NegativeDuration | docs/demo.js:53-54 | -30 minutes prints as `-1h -30m` |
| DemoDisplay.SrArrivalOffset | docs/demo.js:69-81 | non-empty only for a readable non-zero offset, and then the sentence for that many days, `one day` for one |
| DemoDisplay.SentenceOfOffset | docs/demo.js:69-81 | for every day difference, the sentence of its token has the same direction and count |
| DemoDisplay.NaNIsSilent | docs/demo.js:71-72 | the `NaN` token says nothing |
| DemoDisplay.ArrivalNote | docs/demo.js:89-95 | the sentence when there is one; otherwise a note iff both display dates are known and differ, and that note is `Arrives ` followed by the arrival's display date |
| DemoDisplay.NoteOfDates | docs/demo.js:89-95 | with complete dates on different days, the note is the sentence of their calendar difference |
| Text.StripLeadingZerosIdempotent | docs/demo-formatter.js:33 | removing leading zeros twice is removing them once |
| Text.ParseIntToString | docs/demo.js:71 | `parseInt` reads back every integer `String` prints |

## Left out

- `Intl.DateTimeFormat` and `new Date(iso)` are foreign code with a time-zone database (docs/demo-formatter.js:40-75). The text parts they produce are an input record, and `displayTime` and `displayDate` are opaque strings.
- ISO strings are not parsed. The instant fallback of `calculateArrivalOffset` takes each instant as missing, invalid or a millisecond count.
- `formatSegmentsDetailed`, which docs/demo.js imports, is not part of this model: it is not defined in docs/demo-formatter.js.
- The DOM work of docs/demo.js is UI: `buildSegmentNode` markup, chips, listeners, clipboard and `initDemo`. The `operatedBy` and `marketingLabel` texts there only feed that markup.
- docs/sandbox/kayak/kayak.js, docs/app.js and docs/analytics.js are not part of this model: they are UI, third-party checkout and telemetry. docs/sandbox/kayak/kayak-data.js is only the source of the first-outbound example.
- Case mapping covers ASCII letters only. JavaScript's full Unicode mapping can change lengths (`ß` becomes `SS`), and string lengths here count code points rather than UTF-16 units.
- `String(x)` of a non-string field is not modelled: every text field is already a string, with the empty string for an absent one. A missing airport prints as `undefined`; other non-string values are not modelled.
- GdsLine.ResolveBookingClass: `durationMinutes` is an `Option<int>`, so a non-integer duration such as 359.5 against the `< 360` test (docs/demo-formatter.js:152) is not modelled.
- DemoDisplay.FormatDuration: non-integer and infinite minute counts are not modelled; durations are `Option<int>`.
- GdsLine.SegmentLine: models a thrown `RangeError` as `None` without a message.
- KayakFormatter.FormatSegmentsToI: entries are `Option<Flight>`, so non-object entries other than a falsy one are not modelled; the argument is a sequence, so the `TypeError` that `for (const segment of segments)` (docs/sandbox/kayak/kayak-formatter.js:72) throws on a `null` or non-iterable argument is not modelled either.
- GdsCalendar.UtcDay: non-integer year, month or day arguments are not modelled, since `Intl` yields integers.

=== FILE: calendar.dfy ===
/** The calendar side of docs/demo-formatter.js: the weekday-code and month
    tables, the proleptic Gregorian day count behind `Date.UTC`, and the
    signed day-offset token printed after the arrival time. */
module GdsCalendar {
  import opened Options
  import opened Text

  // -----------------------------------------------------------------------
  // DOW_CODE and MONTH_INDEX

  /** The seven three-letter weekday names `Intl` prints, upper-cased. */
  const Weekdays: seq<string> := ["SUN", "MON", "TUE", "WED", "THU", "FRI", "SAT"]

  /** The twelve three-letter month names, upper-cased, in calendar order. */
  const Months: seq<string> :=
    ["JAN", "FEB", "MAR", "APR", "MAY", "JUN", "JUL", "AUG", "SEP", "OCT", "NOV", "DEC"]

  /** `DOW_CODE[weekday] || ''`: one letter per weekday, nothing for any
      other text. */
  function DowCode(weekday: string): (code: string)
    ensures weekday !in Weekdays <==> code == ""
    ensures code != "" ==> |code| == 1
  {
    if weekday == "SUN" then "S"
    else if weekday == "MON" then "M"
    else if weekday == "TUE" then "T"
    else if weekday == "WED" then "W"
    else if weekday == "THU" then "Q"
    else if weekday == "FRI" then "F"
    else if weekday == "SAT" then "J"
    else ""
  }

  /** The weekday a code stands for: the inverse of `DowCode`. */
  function WeekdayOfCode(code: string): (weekday: Option<string>)
    ensures weekday.Some? ==> weekday.value in Weekdays
  {
    if code == "S" then Some("SUN")
    else if code == "M" then Some("MON")
    else if code == "T" then Some("TUE")
    else if code == "W" then Some("WED")
    else if code == "Q" then Some("THU")
    else if code == "F" then Some("FRI")
    else if code == "J" then Some("SAT")
    else None
  }

  /** Every weekday's code leads back to that weekday, so no two weekdays
      share a code; and every code leads back to itself. */
  lemma DowCodeRoundTrip(weekday: string, code: string)
    ensures weekday in Weekdays ==> WeekdayOfCode(DowCode(weekday)) == Some(weekday)
    ensures WeekdayOfCode(code).Some? ==> DowCode(WeekdayOfCode(code).value) == code
  {
  }

  lemma DowCodeInjective(a: string, b: string)
    requires a in Weekdays && b in Weekdays
    requires DowCode(a) == DowCode(b)
    ensures a == b
  {
    DowCodeRoundTrip(a, "");
    DowCodeRoundTrip(b, "");
  }

  /** `MONTH_INDEX`, with `hasOwnProperty` deciding membership. */
  function MonthIndex(month: string): (i: Option<nat>)
    ensures month in Months <==> i.Some?
    ensures i.Some? ==> i.value < 12 && Months[i.value] == month
  {
    if month == "JAN" then Some(0)
    else if month == "FEB" then Some(1)
    else if month == "MAR" then Some(2)
    else if month == "APR" then Some(3)
    else if month == "MAY" then Some(4)
    else if month == "JUN" then Some(5)
    else if month == "JUL" then Some(6)
    else if month == "AUG" then Some(7)
    else if month == "SEP" then Some(8)
    else if month == "OCT" then Some(9)
    else if month == "NOV" then Some(10)
    else if month == "DEC" then Some(11)
    else None
  }

  /** Every month index names its month. */
  lemma MonthIndexOfName(i: nat)
    requires i < 12
    ensures MonthIndex(Months[i]) == Some(i)
  {
  }

  // -----------------------------------------------------------------------
  // Date.UTC(year, monthIndex, day) as a count of days since 1970-01-01

  predicate IsLeapYear(y: int) {
    y % 4 == 0 && (y % 100 != 0 || y % 400 == 0)
  }

  function DaysInYear(y: int): (n: int)
    ensures n == 365 || n == 366
  {
    if IsLeapYear(y) then 366 else 365
  }

  function DaysInMonth(y: int, m: int): (n: int)
    requires 0 <= m < 12
    ensures 28 <= n <= 31
  {
    if m == 1 then (if IsLeapYear(y) then 29 else 28)
    else if m == 3 || m == 5 || m == 8 || m == 10 then 30
    else 31
  }

  /** The day number of the first day of year `y`: ECMAScript's `DayFromYear`,
      whose three quotients round toward negative infinity like Dafny's. */
  function DayFromYear(y: int): int {
    365 * (y - 1970) + (y - 1969) / 4 - (y - 1901) / 100 + (y - 1601) / 400
  }

  /** Days of year `y` before month `m`. */
  function MonthStart(y: int, m: int): (n: int)
    requires 0 <= m < 12
    ensures 0 <= n <= 335
  {
    var base :=
      if m == 0 then 0 else if m == 1 then 31 else if m == 2 then 59
      else if m == 3 then 90 else if m == 4 then 120 else if m == 5 then 151
      else if m == 6 then 181 else if m == 7 then 212 else if m == 8 then 243
      else if m == 9 then 273 else if m == 10 then 304 else 334;
    if m >= 2 && IsLeapYear(y) then base + 1 else base
  }

  /** The day number of a civil date, counted from 1970-01-01. The day of
      the month is not range-checked: day 0 is the last day of the month
      before, as in `Date.UTC`. */
  function CivilDay(y: int, m: int, d: int): int
    requires 0 <= m < 12
  {
    DayFromYear(y) + MonthStart(y, m) + d - 1
  }

  /** `Date.UTC(year, month, day) / DAY_MS`: years 0 to 99 stand for 1900 to
      1999, months outside 0..11 carry into the year, and a date further than
      10^8 days from the epoch is `NaN` (`None`). */
  function UtcDay(year: int, month: int, day: int): (r: Option<int>)
    ensures r.Some? ==> -100000000 <= r.value <= 100000000
  {
    var y := if 0 <= year <= 99 then 1900 + year else year;
    var n := CivilDay(y + month / 12, month % 12, day);
    if n < -100000000 || n > 100000000 then None else Some(n)
  }

  lemma EpochIsDayZero()
    ensures UtcDay(1970, 0, 1) == Some(0)
    ensures UtcDay(70, 0, 1) == Some(0)
  {
  }

  /** Consecutive years start `DaysInYear` apart: the Gregorian leap rule
      falls out of the three floor quotients. */
  lemma DayFromYearStep(y: int)
    ensures DayFromYear(y + 1) == DayFromYear(y) + DaysInYear(y)
  {
    Step4(y);
    Step100(y);
    Step400(y);
    var a := (y - 1968) / 4 - (y - 1969) / 4;
    var b := (y - 1900) / 100 - (y - 1901) / 100;
    var c := (y - 1600) / 400 - (y - 1601) / 400;
    assert DayFromYear(y + 1) == DayFromYear(y) + 365 + a - b + c;
    LeapDivisors(y);
  }

  /** A multiple of 400 is a multiple of 100, which is a multiple of 4. */
  lemma LeapDivisors(y: int)
    ensures y % 400 == 0 ==> y % 100 == 0
    ensures y % 100 == 0 ==> y % 4 == 0
  {
    if y % 400 == 0 {
      var k := y / 400;
      assert y == 100 * (4 * k);
      Hundreds(4 * k);
    }
    if y % 100 == 0 {
      var k := y / 100;
      assert y == 4 * (25 * k);
      Fours(25 * k);
    }
  }

  lemma Hundreds(k: int)
    ensures (100 * k) % 100 == 0
  {
  }

  lemma Fours(k: int)
    ensures (4 * k) % 4 == 0
  {
  }

  lemma Step4(y: int)
    ensures (y - 1968) / 4 - (y - 1969) / 4 == if y % 4 == 0 then 1 else 0
  {
    var q := (y - 1969) / 4;
    var r := (y - 1969) % 4;
    assert y - 1969 == 4 * q + r;
    assert y == 4 * (q + 492) + r + 1;
    if r == 3 {
      assert y - 1968 == 4 * (q + 1);
    }
  }

  lemma Step100(y: int)
    ensures (y - 1900) / 100 - (y - 1901) / 100 == if y % 100 == 0 then 1 else 0
  {
    var q := (y - 1901) / 100;
    var r := (y - 1901) % 100;
    assert y - 1901 == 100 * q + r;
    assert y == 100 * (q + 19) + r + 1;
    if r == 99 {
      assert y - 1900 == 100 * (q + 1);
    }
  }

  lemma Step400(y: int)
    ensures (y - 1600) / 400 - (y - 1601) / 400 == if y % 400 == 0 then 1 else 0
  {
    var q := (y - 1601) / 400;
    var r := (y - 1601) % 400;
    assert y - 1601 == 400 * q + r;
    assert y == 400 * (q + 4) + r + 1;
    if r == 399 {
      assert y - 1600 == 400 * (q + 1);
    }
  }

  /** The last day of a month is followed by the first day of the next
      month, across the end of the year as well. */
  lemma MonthRollover(y: int, m: int)
    requires 0 <= m < 11
    ensures CivilDay(y, m, DaysInMonth(y, m)) + 1 == CivilDay(y, m + 1, 1)
  {
  }

  lemma YearRollover(y: int)
    ensures CivilDay(y, 11, 31) + 1 == CivilDay(y + 1, 0, 1)
  {
    DayFromYearStep(y);
  }

  /** A year has `DaysInYear` days, from 1 January to 31 December. */
  lemma YearLength(y: int)
    ensures CivilDay(y, 11, 31) - CivilDay(y, 0, 1) + 1 == DaysInYear(y)
  {
  }

  // -----------------------------------------------------------------------
  // The offset token

  /** The text after the arrival time for a difference of `diff` calendar
      days: nothing for the same day, `+N` after, and `String(diff)` (which
      carries the minus sign) before. */
  function OffsetToken(diff: int): (t: string)
    ensures t == "" <==> diff == 0
    ensures diff > 0 ==> t[0] == '+'
    ensures diff < 0 ==> t[0] == '-'
  {
    if diff == 0 then ""
    else if diff > 0 then "+" + NatToString(diff)
    else IntToString(diff)
  }

  /** `parseInt` reads the difference back from its token. */
  lemma OffsetTokenRoundTrip(diff: int)
    requires diff != 0
    ensures ParseInt(OffsetToken(diff)) == Some(diff)
  {
    var t := OffsetToken(diff);
    if diff > 0 {
      var n := NatToString(diff);
      assert t[1..] == n && t[0] == '+';
      ParseNatToString(diff, "");
      assert n + "" == n;
      TrimStartOfClean(t);
    } else {
      ParseIntToString(diff);
    }
  }

  /** A token with its sign flipped: `+N` and `-N` trade places. */
  function FlipSign(t: string): (u: string)
    ensures |u| == |t|
  {
    if |t| > 0 && t[0] == '+' then "-" + t[1..]
    else if |t| > 0 && t[0] == '-' then "+" + t[1..]
    else t
  }

  /** Negating the difference flips the sign of the token and keeps its
      digits. */
  lemma OffsetTokenNegate(diff: int)
    ensures OffsetToken(-diff) == FlipSign(OffsetToken(diff))
  {
    if diff > 0 {
      assert ("+" + NatToString(diff))[1..] == NatToString(diff);
    } else if diff < 0 {
      assert ("-" + NatToString(-diff))[1..] == NatToString(-diff);
    }
  }

  /** `Math.round(ms / DAY_MS)` for an integer number of milliseconds:
      the nearest whole day, halves rounding up. */
  function RoundDays(ms: int): (days: int)
    ensures days * 86400000 - 43200000 <= ms < days * 86400000 + 43200000
  {
    (2 * ms + 86400000) / 172800000
  }

  /** Rounding halves up makes the instant fallback lopsided: half a day
      later is a day later, half a day earlier is the same day. */
  lemma RoundDaysAtHalf()
    ensures RoundDays(43200000) == 1 && OffsetToken(RoundDays(43200000)) == "+1"
    ensures RoundDays(-43200000) == 0 && OffsetToken(RoundDays(-43200000)) == ""
  {
  }
}

=== FILE: display.dfy ===
/** The text helpers of the itinerary cards in docs/demo.js: place names,
    title case, the card's booking class, the duration chip, and the
    sentences about the arrival day. */
module DemoDisplay {
  import opened Options
  import opened Text
  import GdsTime
  import GdsCalendar
  import GdsZoned
  import GdsLine

  // -----------------------------------------------------------------------
  // formatPlace

  /** An endpoint's city and airport code as the card reads them; an
      absent field is the empty string. */
  datatype Place = Place(city: string, airport: string)

  /** `formatPlace`: `City (AAA)` when both trimmed fields are present,
      otherwise whichever one is, and nothing for a missing endpoint. */
  function FormatPlace(point: Option<Place>): (r: string)
    ensures point.None? ==> r == ""
    ensures point.Some? && Trim(point.value.city) != "" && Trim(point.value.airport) != "" ==>
      r == Trim(point.value.city) + " (" + Trim(point.value.airport) + ")"
    ensures point.Some? && (Trim(point.value.city) == "" || Trim(point.value.airport) == "") ==>
      r == Trim(point.value.city) + Trim(point.value.airport)
    ensures IsTrimmed(r)
  {
    if point.None? then ""
    else
      var city := if point.value.city != "" then Trim(point.value.city) else "";
      var airport := if point.value.airport != "" then Trim(point.value.airport) else "";
      if city != "" && airport != "" then
        var r := city + " (" + airport + ")";
        assert r[0] == city[0];
        r
      else if city != "" then city
      else
        assert "" + airport == airport;
        airport
  }

  /** The position of the last `(` in `s`, if any. */
  function LastOpenParen(s: string): (k: Option<nat>)
    ensures k.Some? ==> k.value < |s| && s[k.value] == '('
                        && forall i :: k.value < i < |s| ==> s[i] != '('
    ensures k.None? ==> forall i :: 0 <= i < |s| ==> s[i] != '('
  {
    if |s| == 0 then None
    else if s[|s| - 1] == '(' then Some(|s| - 1)
    else LastOpenParen(s[..|s| - 1])
  }

  /** Reads a place label back: `City (AAA)` gives both fields, and a label
      without a parenthesised tail is a city alone. */
  function ParsePlace(shown: string): (p: Place)
  {
    match LastOpenParen(shown)
    case Some(k) =>
      if k >= 1 && shown[k - 1] == ' ' && shown[|shown| - 1] == ')' && k + 1 <= |shown| - 1 then
        Place(shown[..k - 1], shown[k + 1..|shown| - 1])
      else Place(shown, "")
    case None => Place(shown, "")
  }

  /** A place with both fields, the airport code free of parentheses, is
      read back from its shown. */
  lemma PlaceRoundTrip(city: string, airport: string)
    requires city != "" && airport != "" && IsTrimmed(city) && IsTrimmed(airport)
    requires '(' !in airport && ')' !in airport
    ensures ParsePlace(FormatPlace(Some(Place(city, airport)))) == Place(city, airport)
  {
    TrimOfTrimmed(city);
    TrimOfTrimmed(airport);
    var shown := city + " (" + airport + ")";
    var k := |city| + 1;
    assert shown[k] == '(';
    forall i | k < i < |shown| ensures shown[i] != '(' {
      if i < |shown| - 1 {
        assert shown[i] == airport[i - k - 1];
      }
    }
    LastOpenParenOf(shown, k);
    assert shown[..k - 1] == city;
    assert shown[k + 1..|shown| - 1] == airport;
  }

  lemma {:induction false} LastOpenParenOf(s: string, k: nat)
    requires k < |s| && s[k] == '('
    requires forall i :: k < i < |s| ==> s[i] != '('
    ensures LastOpenParen(s) == Some(k)
    decreases |s|
  {
    if k < |s| - 1 {
      LastOpenParenOf(s[..|s| - 1], k);
    }
  }

  // -----------------------------------------------------------------------
  // toTitleCase

  /** One word with its first character upper-cased and the rest
      lower-cased. */
  function Capitalize(w: string): (r: string)
    ensures |r| == |w|
    ensures w != "" ==> r[0] == UpperChar(w[0])
    ensures forall i :: 1 <= i < |r| ==> r[i] == LowerChar(w[i])
    ensures IsWord(w) ==> IsWord(r)
  {
    if w == "" then ""
    else
      var r := [UpperChar(w[0])] + ToLower(w[1..]);
      assert forall i :: 1 <= i < |r| ==> r[i] == LowerChar(w[i]);
      r
  }

  lemma CapitalizeIdempotent(w: string)
    ensures Capitalize(Capitalize(w)) == Capitalize(w)
  {
    if w != "" {
      var c := Capitalize(w);
      assert UpperChar(c[0]) == c[0];
      assert forall i :: 0 <= i < |c| - 1 ==> LowerChar(c[1..][i]) == c[1..][i];
      assert ToLower(c[1..]) == c[1..];
    }
  }

  /** Each word capitalized. */
  function Capitals(ws: seq<string>): (cs: seq<string>)
    ensures |cs| == |ws|
    ensures forall i :: 0 <= i < |ws| ==> cs[i] == Capitalize(ws[i])
  {
    seq(|ws|, i requires 0 <= i < |ws| => Capitalize(ws[i]))
  }

  /** `toTitleCase`: the words of the text, each capitalized, joined by
      single spaces. */
  function ToTitleCase(value: string): (r: string)
  {
    if value == "" then "" else Join(Capitals(Words(value)), " ")
  }

  /** The words of the title-cased text are the capitalized words of the
      text: white-space runs collapse to one space, and no word is lost,
      added or reordered. */
  lemma TitleCaseWords(value: string)
    ensures Words(ToTitleCase(value)) == Capitals(Words(value))
    ensures ToTitleCase(value) == Join(Words(ToTitleCase(value)), " ")
  {
    if value == "" {
      assert Words("") == [];
    } else {
      var ws := Words(value);
      var cs := Capitals(ws);
      forall i | 0 <= i < |cs| ensures IsWord(cs[i]) {
        AllWordsAt(ws, i);
      }
      AllWordsOf(cs);
      WordsOfJoin(cs);
    }
  }

  /** Title-casing twice is title-casing once. */
  lemma TitleCaseIdempotent(value: string)
    ensures ToTitleCase(ToTitleCase(value)) == ToTitleCase(value)
  {
    var t := ToTitleCase(value);
    TitleCaseWords(value);
    if t != "" {
      var cs := Capitals(Words(value));
      forall i | 0 <= i < |cs| ensures Capitalize(cs[i]) == cs[i] {
        CapitalizeIdempotent(Words(value)[i]);
      }
      assert Capitals(cs) == cs;
    }
  }

  // -----------------------------------------------------------------------
  // resolveBookingClass of the card

  /** The card's `resolveBookingClass`: the explicit class trimmed and
      upper-cased, else the cabin's letter from the same table the line
      formatter uses, else `Y`; never empty, and always one of those. */
  function CardBookingClass(bookingClass: string, cabin: string): (c: string)
    ensures c != ""
    ensures GdsLine.ExplicitClass(bookingClass) != "" ==> c == GdsLine.ExplicitClass(bookingClass)
    ensures GdsLine.ExplicitClass(bookingClass) == "" ==>
      c in ["F", "J", "N", "Y"] && (c == "Y" <==> GdsLine.CabinFallback(GdsLine.CabinKey(cabin)) in ["", "Y"])
  {
    var explicit := GdsLine.ExplicitClass(bookingClass);
    var cabinKey := GdsLine.CabinKey(cabin);
    var withCabin :=
      if explicit == "" && cabinKey != "" && GdsLine.CabinFallback(cabinKey) != "" then GdsLine.CabinFallback(cabinKey)
      else explicit;
    if withCabin == "" then "Y" else withCabin
  }

  /** The card and the line agree on the booking class except where the
      line sells a short first-class flight as business. */
  lemma CardAgreesWithLine(seg: GdsLine.Segment, opts: GdsLine.FormatOptions)
    requires !GdsLine.ShortFirst(seg, opts)
    ensures CardBookingClass(seg.bookingClass, seg.cabin) == GdsLine.ResolveBookingClass(seg, opts)
  {
  }

  // -----------------------------------------------------------------------
  // formatDuration

  /** `formatDuration`: whole hours rounded down and the remainder with
      the sign of the minutes (JavaScript's `%`), printed as `Hh Mm`, with
      a zero part left out; nothing when the minutes are not a number. */
  function FormatDuration(minutes: Option<int>): (r: string)
    ensures minutes.None? ==> r == ""
    ensures minutes.Some? && 0 <= minutes.value < 60 ==> r == NatToString(minutes.value) + "m"
    ensures minutes.Some? && minutes.value >= 60 && minutes.value % 60 == 0 ==> r == NatToString(minutes.value / 60) + "h"
  {
    if minutes.None? then ""
    else
      var m := minutes.value;
      var hours := m / 60;
      var mins := GdsTime.JsRem(m, 60);
      if hours == 0 then IntToString(mins) + "m"
      else if mins == 0 then IntToString(hours) + "h"
      else IntToString(hours) + "h " + IntToString(mins) + "m"
  }

  /** The last character of a non-empty string. */
  function Last(s: string): char
    requires s != ""
  {
    s[|s| - 1]
  }

  /** Reads a duration chip back into minutes: `Hh Mm`, `Hh` or `Mm`,
      each number read as `parseInt` reads it. */
  function ParseDuration(s: string): (m: Option<int>)
  {
    var ws := Words(s);
    if |ws| == 1 && Last(ws[0]) == 'm' then ParseInt(ws[0])
    else if |ws| == 1 && Last(ws[0]) == 'h' then
      (match ParseInt(ws[0]) case None => None case Some(h) => Some(60 * h))
    else if |ws| == 2 && Last(ws[0]) == 'h' && Last(ws[1]) == 'm' then
      (match (ParseInt(ws[0]), ParseInt(ws[1]))
       case (Some(h), Some(n)) => Some(60 * h + n)
       case _ => None)
    else None
  }

  /** Every non-negative duration is read back from its chip. */
  lemma DurationRoundTrip(m: nat)
    ensures ParseDuration(FormatDuration(Some(m))) == Some(m)
  {
    if m / 60 == 0 {
      MinutesOnly(m);
    } else if m % 60 == 0 {
      HoursOnly(m);
    } else {
      HoursAndMinutes(m);
    }
  }

  lemma MinutesOnly(m: nat)
    requires m < 60
    ensures ParseDuration(FormatDuration(Some(m))) == Some(m)
  {
    var mw := NatToString(m) + "m";
    assert FormatDuration(Some(m)) == mw;
    UnitWord(m, 'm');
    WordsOfWord(mw);
  }

  lemma HoursOnly(m: nat)
    requires m >= 60 && m % 60 == 0
    ensures ParseDuration(FormatDuration(Some(m))) == Some(m)
  {
    var hw := NatToString(m / 60) + "h";
    assert FormatDuration(Some(m)) == hw;
    UnitWord(m / 60, 'h');
    WordsOfWord(hw);
  }

  lemma HoursAndMinutes(m: nat)
    requires m >= 60 && m % 60 != 0
    ensures ParseDuration(FormatDuration(Some(m))) == Some(m)
  {
    FormatHoursAndMinutes(m);
    ParseHoursAndMinutes(m / 60, m % 60);
    assert 60 * (m / 60) + m % 60 == m;
  }

  lemma FormatHoursAndMinutes(m: nat)
    requires m >= 60 && m % 60 != 0
    ensures FormatDuration(Some(m)) == (NatToString(m / 60) + "h") + " " + (NatToString(m % 60) + "m")
  {
    assert GdsTime.JsRem(m, 60) == m % 60;
  }

  /** A chip of hours and minutes reads back as their total in minutes. */
  lemma ParseHoursAndMinutes(h: nat, n: nat)
    ensures ParseDuration((NatToString(h) + "h") + " " + (NatToString(n) + "m")) == Some(60 * h + n)
  {
    var hw := NatToString(h) + "h";
    var mw := NatToString(n) + "m";
    UnitWord(h, 'h');
    UnitWord(n, 'm');
    TwoWords(hw, mw);
    ParseTwoWords(hw + " " + mw, hw, mw, h, n);
  }

  /** Text whose words are an hours chip and a minutes chip reads as their
      total. */
  lemma ParseTwoWords(s: string, hw: string, mw: string, h: int, n: int)
    requires Words(s) == [hw, mw] && hw != "" && mw != ""
    requires Last(hw) == 'h' && Last(mw) == 'm'
    requires ParseInt(hw) == Some(h) && ParseInt(mw) == Some(n)
    ensures ParseDuration(s) == Some(60 * h + n)
  {
  }

  /** Two words joined by a space split back into the same two words. */
  lemma TwoWords(a: string, b: string)
    requires IsWord(a) && IsWord(b)
    ensures Words(a + " " + b) == [a, b]
  {
    JoinTwo(a, b, " ");
    assert AllWords([a, b][1..][1..]);
    WordsOfJoin([a, b]);
  }

  /** A number followed by its unit letter is a word that `parseInt`
      reads as the number. */
  lemma UnitWord(n: nat, unit: char)
    requires unit == 'h' || unit == 'm'
    ensures IsWord(NatToString(n) + [unit]) && Last(NatToString(n) + [unit]) == unit
    ensures ParseInt(NatToString(n) + [unit]) == Some(n)
  {
    var s := NatToString(n);
    forall i | 0 <= i < |s| ensures !IsSpace(s[i]) {
      DigitNotSpace(s[i]);
    }
    assert (s + [unit])[..|s|] == s;
    ParseIntOfNumeral(n, [unit]);
  }

  /** Negative minutes, which no flight has, print both parts with a minus
      sign: the hours round down and the remainder keeps the sign. */
  lemma NegativeDuration()
    ensures FormatDuration(Some(-30)) == "-1h -30m"
  {
    assert NatToString(1) == "1" && NatToString(30) == "30";
  }

  // -----------------------------------------------------------------------
  // The arrival sentences

  /** `N days` in words, with `one day` for a single day. */
  function DayCount(n: nat): string {
    if n == 1 then "one day" else NatToString(n) + " days"
  }

  /** The sentence a screen reader hears for a difference of `d` days. */
  function DaySentence(d: int): (s: string)
    ensures s == "" <==> d == 0
  {
    if d == 0 then ""
    else "Arrives " + DayCount(if d > 0 then d else -d) + (if d > 0 then " later" else " earlier")
  }

  /** `srArrivalOffset`: the offset token read by `parseInt` and spelt
      out; nothing for an empty or unreadable token or a zero. */
  function SrArrivalOffset(offset: string): (r: string)
    ensures r != "" ==> ParseInt(offset).Some? && ParseInt(offset).value != 0
    ensures ParseInt(offset).Some? ==> r == DaySentence(ParseInt(offset).value)
  {
    if offset == "" then
      assert TrimStart(offset) == offset;
      ""
    else
      match ParseInt(offset)
      case None => ""
      case Some(n) =>
        if n > 0 then "Arrives " + DayCount(n) + " later"
        else if n < 0 then "Arrives " + DayCount(-n) + " earlier"
        else ""
  }

  /** The sentence agrees with the offset token on every day difference:
      its direction is the token's sign and its count the token's digits. */
  lemma SentenceOfOffset(d: int)
    ensures SrArrivalOffset(GdsCalendar.OffsetToken(d)) == DaySentence(d)
  {
    if d != 0 {
      GdsCalendar.OffsetTokenRoundTrip(d);
    }
  }

  /** The `NaN` token of a date that cannot be computed says nothing. */
  lemma NaNIsSilent()
    ensures SrArrivalOffset("NaN") == ""
  {
    assert TrimStart("NaN") == "NaN";
    assert DigitRun("NaN") == 0;
  }

  /** `arrivalNote`: the day sentence when there is one, otherwise the
      arrival's display date when both display dates are known and
      differ, otherwise nothing. */
  function ArrivalNote(sentence: string, dep: Option<GdsZoned.ZonedParts>, arr: Option<GdsZoned.ZonedParts>): (r: string)
    ensures sentence != "" ==> r == sentence
    ensures sentence == "" ==>
      (r != "" <==> dep.Some? && arr.Some? && dep.value.displayDate != "" && arr.value.displayDate != ""
                    && dep.value.displayDate != arr.value.displayDate)
    ensures sentence == "" && r != "" ==> r == "Arrives " + arr.value.displayDate
  {
    if sentence != "" then sentence
    else if dep.Some? && arr.Some? && dep.value.displayDate != "" && arr.value.displayDate != ""
            && dep.value.displayDate != arr.value.displayDate then
      "Arrives " + arr.value.displayDate
    else ""
  }

  /** With complete dates on both ends the note is the day sentence of
      their calendar difference, and the display dates are never
      consulted. */
  lemma NoteOfDates(dep: GdsZoned.ZonedParts, arr: GdsZoned.ZonedParts, depIso: GdsZoned.IsoInstant, arrIso: GdsZoned.IsoInstant)
    requires GdsZoned.HasDate(dep) && GdsZoned.HasDate(arr)
    requires GdsZoned.DayOfParts(dep).Some? && GdsZoned.DayOfParts(arr).Some?
    requires GdsZoned.DayOfParts(arr).value != GdsZoned.DayOfParts(dep).value
    ensures var offset := GdsZoned.CalculateArrivalOffset(Some(dep), Some(arr), depIso, arrIso);
      ArrivalNote(SrArrivalOffset(offset), Some(dep), Some(arr))
        == DaySentence(GdsZoned.DayOfParts(arr).value - GdsZoned.DayOfParts(dep).value)
  {
    var d := GdsZoned.DayOfParts(arr).value - GdsZoned.DayOfParts(dep).value;
    var offset := GdsZoned.CalculateArrivalOffset(Some(dep), Some(arr), depIso, arrIso);
    assert offset == GdsCalendar.OffsetToken(d);
    NoteOfDayCount(d, Some(dep), Some(arr));
  }

  /** A non-zero day count gives its sentence whatever the display dates. */
  lemma NoteOfDayCount(d: int, dep: Option<GdsZoned.ZonedParts>, arr: Option<GdsZoned.ZonedParts>)
    requires d != 0
    ensures ArrivalNote(SrArrivalOffset(GdsCalendar.OffsetToken(d)), dep, arr) == DaySentence(d)
  {
    SentenceOfOffset(d);
    NoteOfSentence(DaySentence(d), dep, arr);
  }

  lemma NoteOfSentence(sentence: string, dep: Option<GdsZoned.ZonedParts>, arr: Option<GdsZoned.ZonedParts>)
    requires sentence != ""
    ensures ArrivalNote(sentence, dep, arr) == sentence
  {
  }
}

=== FILE: example.dfy ===
/** One line worked end to end: Turkish Airlines 32 in J from Atlanta on
    Tuesday 4 June 2024 at 21:50 to Istanbul on Wednesday 5 June at 15:40,
    the first itinerary entry. Each step of `formatSegmentsToI` is pinned
    to its text, and the line is the nine tokens joined by spaces. */
module GdsLineExample {
  import opened Options
  import opened Text
  import GdsTime
  import opened GdsCalendar
  import opened GdsZoned
  import opened GdsLine

  /** Turkish Airlines 32 in J, status `SS1`, with no other optional
      field set; the two endpoints are left open so that any instants and
      clocks with the stated parts fit. */
  function TkSegment(dep: Endpoint, arr: Endpoint): Segment {
    Segment("TK", "", "032", "", "J", "", "", None, Some(dep), Some(arr), "SS1", None, "", "", None, "")
  }

  lemma TkDesignator(dep: Endpoint, arr: Endpoint, opts: FormatOptions)
    ensures Carrier(TkSegment(dep, arr)) == "TK"
    ensures ResolveBookingClass(TkSegment(dep, arr), opts) == "J"
  {
    assert ToUpper("TK") == "TK";
    TrimOfWord("J");
    assert ToUpper("J") == "J";
    assert CabinKey("") == "";
  }

  lemma TkCity(dep: Endpoint, arr: Endpoint)
    requires dep.airport == Some("ATL") && arr.airport == Some("IST")
    ensures AirportText(dep.airport) + AirportText(arr.airport) + "*" + Status(TkSegment(dep, arr)) == "ATLIST*SS1"
  {
    TrimOfWord("SS1");
    assert ToUpper("SS1") == "SS1";
  }

  lemma DepClockDate(c: WallClock)
    requires c.year == "2024" && c.month == "Jun" && c.day == "04" && c.weekday == "Tue"
    ensures var p := ZonedPartsOf(c);
      p.day == "04" && p.month == "JUN" && p.dowCode == "T"
      && p.year == Some(2024) && p.monthIndex == Some(5) && p.dayNumber == Some(4)
  {
    ClockYear(c);
    ClockJune(c);
    ClockDay(c, 4);
    ClockTuesday(c);
  }

  lemma DepClockTime(c: WallClock)
    requires c.hour == "09" && c.minute == "50" && c.dayPeriod == "PM"
    ensures ZonedPartsOf(c).gdsTime == "0950P"
  {
    Pad2Small(9);
    Pad2Wide(5, 0);
    ClockTime(c, 9, 50, 'P');
  }

  lemma ArrClockDate(c: WallClock)
    requires c.year == "2024" && c.month == "Jun" && c.day == "05" && c.weekday == "Wed"
    ensures var p := ZonedPartsOf(c);
      p.year == Some(2024) && p.monthIndex == Some(5) && p.dayNumber == Some(5)
  {
    ClockYear(c);
    ClockJune(c);
    ClockDay(c, 5);
  }

  lemma ArrClockTime(c: WallClock)
    requires c.hour == "03" && c.minute == "40" && c.dayPeriod == "PM"
    ensures ZonedPartsOf(c).gdsTime == "0340P"
  {
    Pad2Small(3);
    Pad2Wide(4, 0);
    ClockTime(c, 3, 40, 'P');
  }

  lemma TkPieces(dep: Endpoint, arr: Endpoint, opts: FormatOptions, dp: ZonedParts, ap: ZonedParts)
    requires dep.airport == Some("ATL") && arr.airport == Some("IST")
    requires dp.day == "04" && dp.month == "JUN" && dp.dowCode == "T" && dp.gdsTime == "0950P"
    requires dp.year == Some(2024) && dp.monthIndex == Some(5) && dp.dayNumber == Some(4)
    requires ap.gdsTime == "0340P"
    requires ap.year == Some(2024) && ap.monthIndex == Some(5) && ap.dayNumber == Some(5)
    ensures Pieces(TkSegment(dep, arr), 0, opts, dp, ap)
         == [" 1", "TK 032J", "04JUN T", "ATLIST*SS1", "950P", "340P", "+1", "/DCTK", "/E"]
  {
    var seg := TkSegment(dep, arr);
    TkDesignator(dep, arr, opts);
    DesignatorExamples();
    TkCity(dep, arr);
    TkTimes();
    TkOffset(dp, ap, dep.iso, arr.iso);
    TkTail(dep, arr, opts);
    OrdinalOne();
    TkDate(dp);
    var head := [" 1", "TK 032J", "04JUN T", "ATLIST*SS1", "950P", "340P"];
    assert Pieces(seg, 0, opts, dp, ap) == head + TailPieces(seg, "TK", "+1", opts);
    NineTokens(head, TailPieces(seg, "TK", "+1", opts));
  }

  lemma NineTokens(a: seq<string>, b: seq<string>)
    requires a == [" 1", "TK 032J", "04JUN T", "ATLIST*SS1", "950P", "340P"]
    requires b == ["+1", "/DCTK", "/E"]
    ensures a + b == [" 1", "TK 032J", "04JUN T", "ATLIST*SS1", "950P", "340P", "+1", "/DCTK", "/E"]
  {
  }

  /** The whole line: ordinal, designator, date, city pair with status,
      both times, the next-day mark, the operating carrier and the ticket
      mark. */
  lemma TkLine(dep: Endpoint, arr: Endpoint, opts: FormatOptions)
    requires dep.airport == Some("ATL") && arr.airport == Some("IST")
    requires dep.clock.Some? && arr.clock.Some?
    requires var c := dep.clock.value;
      c.year == "2024" && c.month == "Jun" && c.day == "04" && c.weekday == "Tue"
      && c.hour == "09" && c.minute == "50" && c.dayPeriod == "PM"
    requires var c := arr.clock.value;
      c.year == "2024" && c.month == "Jun" && c.day == "05" && c.weekday == "Wed"
      && c.hour == "03" && c.minute == "40" && c.dayPeriod == "PM"
    ensures SegmentLine(TkSegment(dep, arr), 0, opts)
         == Some(Join([" 1", "TK 032J", "04JUN T", "ATLIST*SS1", "950P", "340P", "+1", "/DCTK", "/E"], " "))
  {
    var dc, ac := dep.clock.value, arr.clock.value;
    DepClockDate(dc);
    DepClockTime(dc);
    ArrClockDate(ac);
    ArrClockTime(ac);
    TkPieces(dep, arr, opts, ZonedPartsOf(dc), ZonedPartsOf(ac));
  }

  lemma TkDate(dp: ZonedParts)
    requires dp.day == "04" && dp.month == "JUN" && dp.dowCode == "T"
    ensures FormatDateToken(Some(dp)) == "04JUN T"
  {
    assert "04" + "JUN" + " " + "T" == "04JUN T";
  }

  lemma OrdinalOne()
    ensures Ordinal(0) == " 1"
  {
    assert NatToString(1) == "1";
  }

  lemma TkTimes()
    ensures GdsTime.FormatGdsTime("0950P") == "950P"
    ensures GdsTime.FormatGdsTime("0340P") == "340P"
  {
    DepTime();
    ArrTime();
  }

  lemma DepTime()
    ensures GdsTime.FormatGdsTime("0950P") == "950P"
  {
    GdsTime.PaddedHourLosesZero();
  }

  lemma ArrTime()
    ensures GdsTime.FormatGdsTime("0340P") == "340P"
  {
    var t := "0340P";
    GdsTime.OneDigitToken(t[1], t[2..]);
    assert t == ['0', t[1]] + t[2..];
  }

  lemma TkOffset(dp: ZonedParts, ap: ZonedParts, depIso: IsoInstant, arrIso: IsoInstant)
    requires dp.year == Some(2024) && dp.monthIndex == Some(5) && dp.dayNumber == Some(4)
    requires ap.year == Some(2024) && ap.monthIndex == Some(5) && ap.dayNumber == Some(5)
    ensures CalculateArrivalOffset(Some(dp), Some(ap), depIso, arrIso) == "+1"
  {
    CivilDayRange(2024, 5, 4);
    CivilDayRange(2024, 5, 5);
    DayOfPartsIsCivil(dp);
    DayOfPartsIsCivil(ap);
    assert NatToString(1) == "1";
  }

  lemma TkTail(dep: Endpoint, arr: Endpoint, opts: FormatOptions)
    ensures TailPieces(TkSegment(dep, arr), "TK", "+1", opts) == ["+1", "/DCTK", "/E"]
  {
    var seg := TkSegment(dep, arr);
    assert Annotation(seg, "TK", opts) == [];
    assert "/DC" + "TK" == "/DCTK";
    assert seg.eticketable != Some(false) && seg.freeText == "";
    assert TailPieces(seg, "TK", "+1", opts) == ["+1"] + ["/DCTK"] + ["/E"] + [] + [];
  }

  lemma Year2024()
    ensures NatToString(2024) == "2024"
  {
  }

  lemma June()
    ensures ToUpper(Take("Jun", 3)) == "JUN"
  {
  }

  lemma Tuesday()
    ensures DowCode(ToUpper(Take("Tue", 3))) == "T"
  {
    assert ToUpper(Take("Tue", 3)) == "TUE";
  }

  lemma Wednesday()
    ensures DowCode(ToUpper(Take("Wed", 3))) == "W"
  {
    assert ToUpper(Take("Wed", 3)) == "WED";
  }

  /** A number below ten pads to a zero and its digit. */
  lemma Pad2Small(n: nat)
    requires n < 10
    ensures Pad2(n) == ['0', DigitChar(n)]
  {
  }

  /** A two-digit number pads to its own two digits. */
  lemma Pad2Wide(tens: nat, ones: nat)
    requires 1 <= tens < 10 && ones < 10
    ensures Pad2(10 * tens + ones) == [DigitChar(tens), DigitChar(ones)]
  {
  }

  /** Each date field of the clock is read on its own. */
  lemma ClockYear(c: WallClock)
    requires c.year == "2024"
    ensures ZonedPartsOf(c).year == Some(2024)
  {
    Year2024();
    assert NatToString(2024) + "" == NatToString(2024);
    ParseIntOfNumeral(2024, "");
  }

  lemma ClockJune(c: WallClock)
    requires c.month == "Jun"
    ensures ZonedPartsOf(c).month == "JUN" && ZonedPartsOf(c).monthIndex == Some(5)
  {
    June();
  }

  lemma ClockDay(c: WallClock, d: nat)
    requires d < 10 && c.day == ['0', DigitChar(d)]
    ensures ZonedPartsOf(c).day == c.day && ZonedPartsOf(c).dayNumber == Some(d)
  {
    Pad2Small(d);
    ParseIntOfPad2(d);
  }

  lemma ClockTuesday(c: WallClock)
    requires c.weekday == "Tue"
    ensures ZonedPartsOf(c).dowCode == "T"
  {
    Tuesday();
  }

  /** A morning or afternoon clock yields the `hhmmA` or `hhmmP` token of
      its hour and minute. */
  lemma ClockTime(c: WallClock, h: nat, m: nat, letter: char)
    requires 1 <= h <= 12 && m <= 59
    requires c.hour == Pad2(h) && c.minute == Pad2(m)
    requires (c.dayPeriod == "PM" && letter == 'P') || (c.dayPeriod == "AM" && letter == 'A')
    ensures ZonedPartsOf(c).gdsTime == Pad2(h) + Pad2(m) + [letter]
  {
    if c.dayPeriod == "PM" {
      assert ToUpper("PM") == "PM";
    } else {
      assert ToUpper("AM") == "AM";
    }
    ZonedTimeToken(c, h, m);
  }
}

=== FILE: kayak.dfy ===
/** docs/sandbox/kayak/kayak-formatter.js: the second dialect, which reads
    display strings ("Thu, Nov 6", "4:15 pm") rather than instants, hard-codes
    Lufthansa in J, and numbers only the lines it emits. */
module KayakFormatter {
  import opened Options
  import opened Text
  import GdsTime
  import GdsCalendar

  // -----------------------------------------------------------------------
  // DAY_OF_WEEK_CODE

  /** `DAY_OF_WEEK_CODE[weekday]`, with `""` for a name outside the table. */
  function DayOfWeekCode(weekday: string): (code: string)
    ensures weekday !in GdsCalendar.Weekdays <==> code == ""
    ensures code != "" ==> |code| == 1
  {
    if weekday == "SUN" then "A"
    else if weekday == "MON" then "B"
    else if weekday == "TUE" then "C"
    else if weekday == "WED" then "D"
    else if weekday == "THU" then "Q"
    else if weekday == "FRI" then "F"
    else if weekday == "SAT" then "J"
    else ""
  }

  /** The weekday a code stands for: the inverse of `DayOfWeekCode`. */
  function WeekdayOfCode(code: string): (weekday: Option<string>)
    ensures weekday.Some? ==> weekday.value in GdsCalendar.Weekdays
  {
    if code == "A" then Some("SUN")
    else if code == "B" then Some("MON")
    else if code == "C" then Some("TUE")
    else if code == "D" then Some("WED")
    else if code == "Q" then Some("THU")
    else if code == "F" then Some("FRI")
    else if code == "J" then Some("SAT")
    else None
  }

  lemma DayOfWeekCodeRoundTrip(weekday: string, code: string)
    ensures weekday in GdsCalendar.Weekdays ==> WeekdayOfCode(DayOfWeekCode(weekday)) == Some(weekday)
    ensures WeekdayOfCode(code).Some? ==> DayOfWeekCode(WeekdayOfCode(code).value) == code
  {
  }

  /** No two weekdays share a code. */
  lemma DayOfWeekCodeInjective(a: string, b: string)
    requires a in GdsCalendar.Weekdays && b in GdsCalendar.Weekdays
    requires DayOfWeekCode(a) == DayOfWeekCode(b)
    ensures a == b
  {
    DayOfWeekCodeRoundTrip(a, "");
    DayOfWeekCodeRoundTrip(b, "");
  }

  /** The two dialects print the same weekday code from Thursday to
      Saturday and different ones from Sunday to Wednesday. */
  lemma CodesAcrossDialects(weekday: string)
    requires weekday in GdsCalendar.Weekdays
    ensures DayOfWeekCode(weekday) == GdsCalendar.DowCode(weekday)
        <==> weekday == "THU" || weekday == "FRI" || weekday == "SAT"
  {
  }

  /** The weekday code of `parseDateParts`: the table's letter, else the
      first character of the name, else nothing. */
  function WeekdayCode(weekday: string): (code: string)
    ensures |code| <= 1
    ensures code == "" <==> weekday == ""
    ensures weekday !in GdsCalendar.Weekdays ==> code == Take(weekday, 1)
  {
    var c := DayOfWeekCode(weekday);
    if c != "" then c else Take(weekday, 1)
  }

  // -----------------------------------------------------------------------
  // parseDateParts

  /** The length of the longest comma-free prefix. */
  function UntilComma(s: string): (k: nat)
    ensures k <= |s|
    ensures forall i :: 0 <= i < k ==> s[i] != ','
    ensures k == |s| || s[k] == ','
  {
    if |s| > 0 && s[0] != ',' then 1 + UntilComma(s[1..]) else 0
  }

  /** The first two fields of `s.split(',')`, each `""` when absent. */
  function CommaFields(s: string): (f: (string, string))
    ensures ',' !in f.0 && ',' !in f.1
    ensures ',' !in s ==> f == (s, "")
  {
    var k := UntilComma(s);
    if k == |s| then (s, "")
    else
      var rest := s[k + 1..];
      (s[..k], rest[..UntilComma(rest)])
  }

  /** `UntilComma` finds the end of a comma-free prefix. */
  lemma {:induction false} UntilCommaOf(a: string, b: string)
    requires ',' !in a
    requires |b| == 0 || b[0] == ','
    ensures UntilComma(a + b) == |a|
    decreases |a|
  {
    if |a| > 0 {
      assert (a + b)[0] == a[0];
      assert (a + b)[1..] == a[1..] + b;
      UntilCommaOf(a[1..], b);
    } else {
      assert a + b == b;
    }
  }

  /** Splitting at commas recovers the first two of the joined fields. */
  lemma CommaFieldsOf(a: string, b: string, tail: string)
    requires ',' !in a && ',' !in b
    requires |tail| == 0 || tail[0] == ','
    ensures CommaFields(a + "," + b + tail) == (a, b)
  {
    var s := a + "," + b + tail;
    assert s == a + ("," + b + tail);
    UntilCommaOf(a, "," + b + tail);
    var rest := s[|a| + 1..];
    assert rest == b + tail;
    UntilCommaOf(b, tail);
    assert s[..|a|] == a;
    assert rest[..|b|] == b;
  }

  /** The record `parseDateParts` returns. */
  datatype DateParts = DateParts(day: string, month: string, dowCode: string)

  /** `parseDateParts`: nothing for blank text; otherwise the weekday from
      before the first comma and the month and day from the first two words
      after it (the day padded to two characters with `0`). `MONTH_CODE`
      maps every month name to itself and anything else falls back to the
      name, so the month is the three upper-cased letters as read. */
  function ParseDateParts(raw: string): (p: Option<DateParts>)
    ensures p.None? <==> Trim(raw) == ""
    ensures p.Some? ==> |p.value.month| <= 3 && |p.value.dowCode| <= 1
    ensures p.Some? ==> p.value.day == "" || |p.value.day| >= 2
    ensures p.Some? ==> NoSpace(p.value.day) && NoSpace(p.value.month) && NoSpace(p.value.dowCode)
  {
    var text := Trim(raw);
    if text == "" then None
    else
      var (weekdayPart, rest) := CommaFields(text);
      var weekday := ToUpper(Take(Trim(weekdayPart), 3));
      var ws := Words(rest);
      var month := if |ws| > 0 then ToUpper(Take(ws[0], 3)) else "";
      var day := if |ws| > 1 then PadStart(ws[1], 2, '0') else "";
      WeekdayCodeNoSpace(Trim(weekdayPart));
      WordFieldsNoSpace(ws);
      Some(DateParts(day, month, WeekdayCode(weekday)))
  }

  /** The month and day taken from the words carry no white space. */
  lemma WordFieldsNoSpace(ws: seq<string>)
    requires AllWords(ws)
    ensures |ws| > 0 ==> NoSpace(ToUpper(Take(ws[0], 3)))
    ensures |ws| > 1 ==> NoSpace(PadStart(ws[1], 2, '0'))
  {
    if |ws| > 0 {
      AllWordsAt(ws, 0);
      var m := ToUpper(Take(ws[0], 3));
      assert forall i :: 0 <= i < |m| ==> m[i] == UpperChar(ws[0][i]);
    }
    if |ws| > 1 {
      AllWordsAt(ws, 1);
      var w := ws[1];
      var d := PadStart(w, 2, '0');
      forall i | 0 <= i < |d| ensures !IsSpace(d[i]) {
        if i >= |d| - |w| {
          assert d[i] == d[|d| - |w|..][i - (|d| - |w|)];
        }
      }
    }
  }

  /** The code taken from a trimmed weekday name is never white space. */
  lemma WeekdayCodeNoSpace(name: string)
    requires IsTrimmed(name)
    ensures NoSpace(WeekdayCode(ToUpper(Take(name, 3))))
  {
    var w := ToUpper(Take(name, 3));
    if |w| > 0 {
      assert w[0] == UpperChar(name[0]);
    }
  }

  /** A date written the way the search results print it, weekday name,
      comma, space, month name, space, day of the month, parses into the
      zero-padded day, the upper-cased month and the weekday's code. */
  lemma ParseRenderedDate(weekday: string, month: string, day: nat)
    requires IsWord(weekday) && ',' !in weekday
    requires IsWord(month) && ',' !in month
    ensures ParseDateParts(weekday + ", " + month + " " + NatToString(day))
         == Some(DateParts(PadStart(NatToString(day), 2, '0'), ToUpper(Take(month, 3)),
                           WeekdayCode(ToUpper(Take(weekday, 3)))))
  {
    var n := NatToString(day);
    var rest := " " + month + " " + n;
    var s := weekday + ", " + month + " " + n;
    NumeralIsWord(day);
    RenderedDateTrimmed(weekday, month, n);
    RenderedDateFields(weekday, month, n);
    RenderedDateWords(month, n);
    TrimOfTrimmed(weekday);
  }

  lemma NumeralIsWord(n: nat)
    ensures IsWord(NatToString(n)) && ',' !in NatToString(n)
  {
    var s := NatToString(n);
    forall i | 0 <= i < |s| ensures !IsSpace(s[i]) && s[i] != ',' {
      DigitNotSpace(s[i]);
    }
  }

  lemma RenderedDateTrimmed(weekday: string, month: string, n: string)
    requires IsWord(weekday) && IsWord(n)
    ensures Trim(weekday + ", " + month + " " + n) == weekday + ", " + month + " " + n
  {
    var s := weekday + ", " + month + " " + n;
    assert s[0] == weekday[0];
    assert s[|s| - 1] == n[|n| - 1];
    TrimOfTrimmed(s);
  }

  lemma RenderedDateFields(weekday: string, month: string, n: string)
    requires ',' !in weekday && ',' !in month && ',' !in n
    ensures CommaFields(weekday + ", " + month + " " + n) == (weekday, " " + month + " " + n)
  {
    var rest := " " + month + " " + n;
    assert weekday + ", " + month + " " + n == weekday + "," + rest + "";
    assert ',' !in rest by {
      assert forall i :: 0 <= i < |rest| ==> rest[i] == ' ' || rest[i] in month || rest[i] in n;
    }
    CommaFieldsOf(weekday, rest, "");
  }

  lemma RenderedDateWords(month: string, n: string)
    requires IsWord(month) && IsWord(n)
    ensures Words(" " + month + " " + n) == [month, n]
  {
    JoinTwo(month, n, " ");
    assert " " + month + " " + n == " " + Join([month, n], " ");
    WordsAfterSpace(Join([month, n], " "));
    assert AllWords([month, n][1..][1..]);
    WordsOfJoin([month, n]);
  }

  // -----------------------------------------------------------------------
  // formatDateToken

  /** `formatDateToken`: day and month run together when both are present,
      otherwise whichever is, and nothing without parts; in every case the
      concatenation of the two. */
  function FormatDateToken(p: Option<DateParts>): (t: string)
    ensures p.None? ==> t == ""
    ensures p.Some? ==> t == p.value.day + p.value.month
  {
    if p.None? then ""
    else if p.value.day != "" && p.value.month != "" then p.value.day + p.value.month
    else if p.value.day != "" then p.value.day
    else p.value.month
  }

  /** A two-character day is read back from the front of the token. */
  lemma DateTokenSplit(p: DateParts)
    requires |p.day| == 2
    ensures var t := FormatDateToken(Some(p)); t[..2] == p.day && t[2..] == p.month
  {
  }

  // -----------------------------------------------------------------------
  // formatGdsTime

  /** The three groups of `/^(\d{1,2}):(\d{2})\s*([ap]m)$/i`, the last one
      reduced to its upper-cased first letter. */
  datatype ClockMatch = ClockMatch(hour: string, minute: string, meridiem: char)

  predicate IsMeridiemLetter(c: char) {
    c == 'a' || c == 'A' || c == 'p' || c == 'P'
  }

  predicate AllSpace(s: string) {
    forall i :: 0 <= i < |s| ==> IsSpace(s[i])
  }

  /** Whether `text` matches the clock pattern, and its groups when it does.
      The hour takes two digits when there are two, and backing off to one
      cannot help since a digit is not a colon; the white-space run then
      fills everything between the minutes and the final two letters. */
  function MatchClock(text: string): (m: Option<ClockMatch>)
    ensures m.Some? ==> 1 <= |m.value.hour| <= 2 && AllDigits(m.value.hour)
    ensures m.Some? ==> |m.value.minute| == 2 && AllDigits(m.value.minute)
    ensures m.Some? ==> m.value.meridiem == 'A' || m.value.meridiem == 'P'
    ensures m.Some? ==>
      var k := |m.value.hour|;
      && |text| >= k + 5 && text[..k] == m.value.hour && text[k] == ':'
      && text[k + 1..k + 3] == m.value.minute && AllSpace(text[k + 3..|text| - 2])
      && IsMeridiemLetter(text[|text| - 2]) && UpperChar(text[|text| - 2]) == m.value.meridiem
      && (text[|text| - 1] == 'm' || text[|text| - 1] == 'M')
  {
    var h := if |text| >= 2 && IsDigit(text[0]) && IsDigit(text[1]) then 2
             else if |text| >= 1 && IsDigit(text[0]) then 1
             else 0;
    if h == 0 || |text| < h + 5 || text[h] != ':' || !IsDigit(text[h + 1]) || !IsDigit(text[h + 2]) then None
    else
      var rest := text[h + 3..];
      var a := rest[|rest| - 2];
      assert rest[..|rest| - 2] == text[h + 3..|text| - 2];
      if AllSpace(rest[..|rest| - 2]) && IsMeridiemLetter(a) && (rest[|rest| - 1] == 'm' || rest[|rest| - 1] == 'M')
      then Some(ClockMatch(text[..h], text[h + 1..h + 3], UpperChar(a)))
      else None
  }

  /** Every text of the pattern's shape matches, with its own groups. */
  lemma MatchClockOf(hour: string, minute: string, gap: string, a: char, m: char)
    requires 1 <= |hour| <= 2 && AllDigits(hour)
    requires |minute| == 2 && AllDigits(minute)
    requires AllSpace(gap) && IsMeridiemLetter(a) && (m == 'm' || m == 'M')
    ensures MatchClock(hour + ":" + minute + gap + [a, m]) == Some(ClockMatch(hour, minute, UpperChar(a)))
  {
    var text := hour + ":" + minute + gap + [a, m];
    ClockTextSlices(hour, minute, gap + [a, m]);
    MatchClockOfSlices(text, hour, minute, gap, a, m);
  }

  lemma ClockTextSlices(hour: string, minute: string, rest: string)
    requires |minute| == 2
    ensures var text := hour + ":" + minute + rest;
      && |text| == |hour| + 3 + |rest|
      && text[..|hour|] == hour && text[|hour|] == ':'
      && text[|hour| + 1..|hour| + 3] == minute && text[|hour| + 3..] == rest
  {
    var text := hour + (":" + (minute + rest));
    assert text == hour + ":" + minute + rest;
    var h := |hour|;
    assert text[..h] == hour;
    assert text[h + 1..] == minute + rest;
    assert text[h + 3..] == rest;
  }

  lemma MatchClockOfSlices(text: string, hour: string, minute: string, gap: string, a: char, m: char)
    requires 1 <= |hour| <= 2 && AllDigits(hour)
    requires |minute| == 2 && AllDigits(minute)
    requires AllSpace(gap) && IsMeridiemLetter(a) && (m == 'm' || m == 'M')
    requires |text| == |hour| + 3 + |gap| + 2
    requires text[..|hour|] == hour && text[|hour|] == ':'
    requires text[|hour| + 1..|hour| + 3] == minute && text[|hour| + 3..] == gap + [a, m]
    ensures MatchClock(text) == Some(ClockMatch(hour, minute, UpperChar(a)))
  {
    var rest := text[|hour| + 3..];
    assert rest[..|rest| - 2] == gap;
  }

  /** The hour after `formatGdsTime`'s adjustments: zero (or unreadable)
      becomes 12 and anything past 12 has 12 taken off. */
  function KayakHour(hour: Option<int>): (h: int)
    ensures h >= 1
    ensures hour.None? || hour.value <= 0 ==> h == 12
    ensures hour.Some? && 1 <= hour.value <= 12 ==> h == hour.value
    ensures hour.Some? && hour.value > 12 ==> h == hour.value - 12
    ensures hour.Some? && 13 <= hour.value <= 24 ==> 1 <= h <= 12 && h % 12 == hour.value % 12
  {
    if hour.None? || hour.value <= 0 then 12
    else if hour.value > 12 then hour.value - 12
    else hour.value
  }

  /** `formatGdsTime` of the kayak dialect: a clock reading becomes the
      unpadded hour, the minutes and `A` or `P`; any other text comes back
      trimmed and upper-cased. */
  function FormatTime(raw: string): (r: string)
    ensures Trim(raw) == "" ==> r == ""
    ensures MatchClock(Trim(raw)).None? ==> r == ToUpper(Trim(raw))
    ensures MatchClock(Trim(raw)).Some? ==>
              var c := MatchClock(Trim(raw)).value;
              4 <= |r| && r[0] != '0' && r[|r| - 1] == c.meridiem && r[|r| - 3..|r| - 1] == c.minute
  {
    if raw == "" then ""
    else
      var text := Trim(raw);
      match MatchClock(text)
      case None => ToUpper(text)
      case Some(c) =>
        var hour := KayakHour(ParseInt(c.hour));
        // the source's second zero-to-twelve guard cannot fire: the hour is
        // at least 1 here
        var hourToken := NatToString(hour);
        var token := hourToken + c.minute + [c.meridiem];
        assert token[|token| - 3..|token| - 1] == c.minute;
        StripLeadingZeros(token)
  }

  /** The clock text the search results show for a minute of the day:
      the 12-hour hour without padding, a colon, two-digit minutes, a space
      and `am` or `pm`. */
  function ClockText(mins: int): string {
    var m := mins % 1440;
    NatToString(GdsTime.ClockHour(m / 60)) + ":" + Pad2(mins % 60) + " "
      + (if GdsTime.PeriodLetter(m) == 'P' then "pm" else "am")
  }

  /** The two dialects agree on time: the kayak formatter reading a clock
      text prints what the demo formatter prints for the same minute. */
  lemma TimesAcrossDialects(mins: int)
    ensures FormatTime(ClockText(mins)) == GdsTime.FormatGdsTime(GdsTime.MinutesToGds(mins))
  {
    var m := mins % 1440;
    var h := GdsTime.ClockHour(m / 60);
    var hh := NatToString(h);
    var mm := Pad2(mins % 60);
    var letter := GdsTime.PeriodLetter(m);
    var a := if letter == 'P' then 'p' else 'a';
    assert ClockText(mins) == hh + ":" + mm + " " + [a, 'm'];
    assert AllSpace(" ");
    FormatTimeOfHour(h, mm, " ", a, 'm');
    assert KayakHour(Some(h)) == h && UpperChar(a) == letter;
    GdsTime.ShortTokenOfMinutes(mins);
  }

  lemma ClockTextTrimmed(hh: string, tail: string)
    requires |hh| > 0 && AllDigits(hh) && |tail| > 0 && !IsSpace(tail[|tail| - 1])
    ensures Trim(hh + ":" + tail) == hh + ":" + tail
  {
    var s := hh + ":" + tail;
    assert s[0] == hh[0];
    DigitNotSpace(hh[0]);
    assert s[|s| - 1] == tail[|tail| - 1];
    TrimOfTrimmed(s);
  }

  /** A clock reading, with any white space before the period, prints as
      the adjusted hour, the minutes as written and the period letter. */
  lemma FormatTimeOfClock(hour: string, minute: string, gap: string, a: char, m: char)
    requires 1 <= |hour| <= 2 && AllDigits(hour)
    requires |minute| == 2 && AllDigits(minute)
    requires AllSpace(gap) && IsMeridiemLetter(a) && (m == 'm' || m == 'M')
    ensures ParseInt(hour).Some?
    ensures FormatTime(hour + ":" + minute + gap + [a, m])
         == NatToString(KayakHour(ParseInt(hour))) + minute + [UpperChar(a)]
  {
    var text := hour + ":" + minute + gap + [a, m];
    ClockTextTrimmed(hour, minute + gap + [a, m]);
    assert text == hour + ":" + (minute + gap + [a, m]);
    MatchClockOf(hour, minute, gap, a, m);
    DigitsParse(hour);
    var hh := NatToString(KayakHour(ParseInt(hour)));
    assert (hh + minute + [UpperChar(a)])[0] == hh[0];
  }

  /** The same for an hour written as a numeral: the adjusted hour. */
  lemma FormatTimeOfHour(h: nat, minute: string, gap: string, a: char, m: char)
    requires h < 100
    requires |minute| == 2 && AllDigits(minute)
    requires AllSpace(gap) && IsMeridiemLetter(a) && (m == 'm' || m == 'M')
    ensures FormatTime(NatToString(h) + ":" + minute + gap + [a, m])
         == NatToString(KayakHour(Some(h))) + minute + [UpperChar(a)]
  {
    assert |NatToString(h)| <= 2 by {
      if h >= 10 {
        assert NatToString(h) == NatToString(h / 10) + [DigitChar(h % 10)];
      }
    }
    FormatTimeOfClock(NatToString(h), minute, gap, a, m);
    ParseIntOfNumeral(h, "");
    assert NatToString(h) + "" == NatToString(h);
  }

  /** `parseInt` reads one or two digits. */
  lemma DigitsParse(s: string)
    requires 1 <= |s| <= 2 && AllDigits(s)
    ensures ParseInt(s).Some?
  {
    DigitNotSpace(s[0]);
    TrimStartOfClean(s);
    DigitRunOfDigits(s, "");
    assert s + "" == s;
  }

  /** The times of the sample itinerary (the texts are parameters so that
      the formatter is not evaluated on literals), an hour past 12, which
      loses 12, and hour zero, which reads as 12. */
  lemma TimeExamples(t1: string, t2: string, t3: string, t4: string, t5: string)
    requires t1 == "4:15 pm" && t2 == "9:05 am" && t3 == "12:40 pm"
    requires t4 == "13:05 pm" && t5 == "0:30am"
    ensures FormatTime(t1) == "415P" && FormatTime(t2) == "905A" && FormatTime(t3) == "1240P"
    ensures FormatTime(t4) == "105P" && FormatTime(t5) == "1230A"
  {
    FourFifteen(t1);
    NineOhFive(t2);
    TwelveForty(t3);
    ThirteenOhFive(t4);
    ZeroThirty(t5);
  }

  lemma FourFifteen(t: string)
    requires t == "4:15 pm"
    ensures FormatTime(t) == "415P"
  {
    ClockExample(t, 4, "15", " ", 'p', "415P");
  }

  lemma NineOhFive(t: string)
    requires t == "9:05 am"
    ensures FormatTime(t) == "905A"
  {
    ClockExample(t, 9, "05", " ", 'a', "905A");
  }

  lemma TwelveForty(t: string)
    requires t == "12:40 pm"
    ensures FormatTime(t) == "1240P"
  {
    ClockExample(t, 12, "40", " ", 'p', "1240P");
  }

  lemma ThirteenOhFive(t: string)
    requires t == "13:05 pm"
    ensures FormatTime(t) == "105P"
  {
    ClockExample(t, 13, "05", " ", 'p', "105P");
  }

  lemma ZeroThirty(t: string)
    requires t == "0:30am"
    ensures FormatTime(t) == "1230A"
  {
    ClockExample(t, 0, "30", "", 'a', "1230A");
  }

  /** One worked clock: the text is the numeral, a colon, the minutes, the
      gap and the period, and the expected token is the adjusted hour, the
      minutes and the period letter. */
  lemma ClockExample(t: string, h: nat, minute: string, gap: string, a: char, token: string)
    requires h < 100 && |minute| == 2 && AllDigits(minute) && AllSpace(gap) && IsMeridiemLetter(a)
    requires t == NatToString(h) + ":" + minute + gap + [a, 'm']
    requires token == NatToString(KayakHour(Some(h))) + minute + [UpperChar(a)]
    ensures FormatTime(t) == token
  {
    FormatTimeOfHour(h, minute, gap, a, 'm');
  }

  /** Text that is not a clock comes back upper-cased. */
  lemma NotAClock(t: string)
    requires t == "noon"
    ensures FormatTime(t) == "NOON"
  {
    TrimOfTrimmed(t);
  }

  // -----------------------------------------------------------------------
  // formatSegmentsToI

  /** One end of a flight as the search results show it; an absent field is
      the empty string, which the formatter treats like a missing one. */
  datatype Stop = Stop(time: string, iata: string, date: string)

  /** An entry of the results list: a flight, or a layover notice when
      `layover` is set. */
  datatype Flight = Flight(flightNumber: string, depart: Option<Stop>, arrive: Option<Stop>, layover: bool)

  /** `segment.depart?.field`: a missing end reads as empty fields. */
  function StopOf(s: Option<Stop>): Stop {
    if s.Some? then s.value else Stop("", "", "")
  }

  /** `parts?.dowCode ? parts.dowCode : ''`. */
  function DowOf(p: Option<DateParts>): string {
    if p.Some? then p.value.dowCode else ""
  }

  /** The arrival date is printed when both dates are known and differ. */
  predicate ShowsArrivalDate(departToken: string, arriveToken: string) {
    departToken != "" && arriveToken != "" && departToken != arriveToken
  }

  /** The arrival date and its weekday code, when the date is printed. */
  function ArrivalPieces(departToken: string, arriveToken: string, arriveDow: string): (ps: seq<string>)
    ensures ps == [] <==> !ShowsArrivalDate(departToken, arriveToken)
    ensures ps != [] ==> ps[0] == arriveToken && (|ps| == 2 <==> arriveDow != "") && |ps| <= 2
    ensures forall i :: 0 <= i < |ps| ==> ps[i] != ""
  {
    if !ShowsArrivalDate(departToken, arriveToken) then []
    else [arriveToken] + (if arriveDow != "" then [arriveDow] else [])
  }

  /** The flight field: the number with the hard-coded class `J`. */
  function FlightToken(flightNumber: string): (t: string)
    ensures t != "" && t[|t| - 1] == 'J' && IsTrimmed(t)
  {
    var s := flightNumber + "J";
    assert s[|s| - 1] == 'J';
    TrimKeepsLast(s);
    Trim(s)
  }

  /** The fields between the flight and the trailing marks, before empty
      ones are dropped: departure date and weekday, city pair with status,
      the times that are known, and the arrival date when it differs. */
  function MiddleFields(f: Flight): seq<string> {
    var dep := StopOf(f.depart);
    var arr := StopOf(f.arrive);
    var dp := ParseDateParts(dep.date);
    var ap := ParseDateParts(arr.date);
    var departToken := FormatDateToken(dp);
    var arriveToken := FormatDateToken(ap);
    [departToken, DowOf(dp), dep.iata + arr.iata + "*SS1"]
      + Compact([FormatTime(dep.time), FormatTime(arr.time)])
      + ArrivalPieces(departToken, arriveToken, DowOf(ap))
  }

  /** The tokens of a line: the ordinal, carrier `LH`, the flight, the
      middle fields and the two trailing marks, with empty fields dropped.
      The ordinal, the carrier, the flight and the marks are always there. */
  function LineTokens(index: nat, flight: string, middle: seq<string>): (ts: seq<string>)
    requires flight != ""
    ensures |ts| >= 5
    ensures ts[0] == NatToString(index) && ts[1] == "LH" && ts[2] == flight
    ensures ts[|ts| - 2] == "/DCLH" && ts[|ts| - 1] == "/E"
    ensures forall i :: 0 <= i < |ts| ==> ts[i] != ""
    ensures ts == [NatToString(index), "LH", flight] + Compact(middle) + ["/DCLH", "/E"]
  {
    CompactFrame([NatToString(index), "LH", flight], middle, ["/DCLH", "/E"]);
    Compact([NatToString(index), "LH", flight] + middle + ["/DCLH", "/E"])
  }

  /** Dropping empty fields leaves non-empty ends in place. */
  lemma CompactFrame(head: seq<string>, mid: seq<string>, tail: seq<string>)
    requires forall i :: 0 <= i < |head| ==> head[i] != ""
    requires forall i :: 0 <= i < |tail| ==> tail[i] != ""
    ensures Compact(head + mid + tail) == head + Compact(mid) + tail
  {
    CompactAppend(head + mid, tail);
    CompactAppend(head, mid);
    CompactOfNonEmpty(head);
    CompactOfNonEmpty(tail);
  }

  /** The tokens of the line for flight `f` numbered `index`. */
  function FlightTokens(f: Flight, index: nat): seq<string> {
    LineTokens(index, FlightToken(f.flightNumber), MiddleFields(f))
  }

  /** The text of one line: its tokens joined by single spaces. */
  function KayakLine(f: Flight, index: nat): string {
    Join(FlightTokens(f, index), " ")
  }

  /** A line opens with its ordinal and the carrier and closes with the two
      marks. */
  lemma LineEnds(index: nat, flight: string, middle: seq<string>)
    requires flight != ""
    ensures var ts := LineTokens(index, flight, middle);
      && Join(ts, " ") == NatToString(index) + " LH " + Join(ts[2..], " ")
      && Join(ts, " ") == Join(ts[..|ts| - 2], " ") + " /DCLH /E"
  {
    var ts := LineTokens(index, flight, middle);
    assert ts[1..][0] == "LH" && ts[1..][1..] == ts[2..];
    assert Join(ts, " ") == NatToString(index) + (" " + ("LH" + (" " + Join(ts[2..], " "))));
    var front := ts[..|ts| - 2];
    assert ts == front + ["/DCLH"] + ["/E"];
    JoinAppend(front, "/DCLH", " ");
    JoinAppend(front + ["/DCLH"], "/E", " ");
  }

  /** When no field holds white space, splitting the line at white space
      gives its tokens back: the tokens are separated by exactly one space
      and none is empty. */
  lemma LineWords(index: nat, flight: string, middle: seq<string>)
    requires flight != "" && NoSpace(flight)
    requires forall i :: 0 <= i < |middle| ==> NoSpace(middle[i])
    ensures Words(Join(LineTokens(index, flight, middle), " ")) == LineTokens(index, flight, middle)
  {
    var head := [NatToString(index), "LH", flight];
    var fields := head + middle + ["/DCLH", "/E"];
    var ts := LineTokens(index, flight, middle);
    NumeralIsWord(index);
    CompactMembers(fields);
    forall i | 0 <= i < |ts| ensures IsWord(ts[i]) {
      assert ts[i] in fields;
    }
    AllWordsOf(ts);
    WordsOfJoin(ts);
  }

  /** The arrival date is on the line exactly when it is printed: when both
      dates are known and differ it is among the tokens, and otherwise
      nothing follows the times. */
  lemma ArrivalDateOnLine(f: Flight, index: nat)
    ensures var dt := FormatDateToken(ParseDateParts(StopOf(f.depart).date));
            var at := FormatDateToken(ParseDateParts(StopOf(f.arrive).date));
      && (ShowsArrivalDate(dt, at) ==> at in FlightTokens(f, index))
      && (!ShowsArrivalDate(dt, at) ==>
            MiddleFields(f) == [dt, DowOf(ParseDateParts(StopOf(f.depart).date)),
                                StopOf(f.depart).iata + StopOf(f.arrive).iata + "*SS1"]
                               + Compact([FormatTime(StopOf(f.depart).time), FormatTime(StopOf(f.arrive).time)]))
  {
    var dt := FormatDateToken(ParseDateParts(StopOf(f.depart).date));
    var at := FormatDateToken(ParseDateParts(StopOf(f.arrive).date));
    var mid := MiddleFields(f);
    if ShowsArrivalDate(dt, at) {
      assert at in mid;
      var fields := [NatToString(index), "LH", FlightToken(f.flightNumber)] + mid + ["/DCLH", "/E"];
      assert at in fields;
      CompactMembers(fields);
    }
  }

  // -----------------------------------------------------------------------
  // The loop: flights only, numbered from 1

  /** `!segment || segment.layover` fails: the entry is a flight. */
  predicate IsFlight(e: Option<Flight>) {
    e.Some? && !e.value.layover
  }

  /** The flights among the entries, in order: one per flight entry, the
      j-th being the entry at the j-th flight position. */
  function Flights(es: seq<Option<Flight>>): (fs: seq<Flight>)
    ensures |fs| == |Positions(es, IsFlight)|
    ensures forall j :: 0 <= j < |fs| ==> fs[j] == es[Positions(es, IsFlight)[j]].value
    decreases |es|
  {
    if |es| == 0 then []
    else
      var i := |es| - 1;
      var prefix := es[..i];
      assert forall k :: 0 <= k < i ==> es[k] == prefix[k];
      assert Positions(es, IsFlight)
          == if IsFlight(es[i]) then Positions(prefix, IsFlight) + [i] else Positions(prefix, IsFlight);
      var fs := Flights(prefix);
      if IsFlight(es[i]) then fs + [es[i].value] else fs
  }

  /** The flights among the entries rendered by `render`, numbered from 1
      in order of appearance. */
  function Numbered(es: seq<Option<Flight>>, render: (Flight, nat) -> string): (ls: seq<string>)
    ensures |ls| == |Flights(es)|
    ensures forall j :: 0 <= j < |ls| ==> ls[j] == render(Flights(es)[j], j + 1)
    decreases |es|
  {
    if |es| == 0 then []
    else
      var prefix := es[..|es| - 1];
      var ls := Numbered(prefix, render);
      if IsFlight(es[|es| - 1]) then ls + [render(es[|es| - 1].value, |ls| + 1)] else ls
  }

  /** The lines `formatSegmentsToI` builds: one per flight, numbered by
      position among the flights, so layovers and empty entries leave no
      gap in the numbering. */
  function KayakLines(es: seq<Option<Flight>>): (ls: seq<string>)
    ensures |ls| == |Flights(es)|
    ensures forall j :: 0 <= j < |ls| ==> ls[j] == KayakLine(Flights(es)[j], j + 1)
  {
    Numbered(es, KayakLine)
  }

  /** `formatSegmentsToI`: walks the entries, skips those that are not
      flights, numbers the rest from 1 and joins the lines with newlines. */
  method FormatSegmentsToI(entries: seq<Option<Flight>>) returns (text: string)
    ensures text == Join(KayakLines(entries), "\n")
  {
    var lines: seq<string> := [];
    var index := 1;
    for i := 0 to |entries|
      invariant lines == KayakLines(entries[..i])
      invariant index == |lines| + 1
    {
      assert entries[..i + 1][..i] == entries[..i];
      assert KayakLines(entries[..i + 1]) == Numbered(entries[..i + 1], KayakLine);
      var e := entries[i];
      if e.None? || e.value.layover {
        continue;
      }
      lines := lines + [KayakLine(e.value, index)];
      index := index + 1;
    }
    assert entries[..|entries|] == entries;
    text := Join(lines, "\n");
  }
}

=== FILE: kayak_example.dfy ===
/** Lines of the kayak dialect worked end to end: the first outbound flight
    of the sample itinerary (Lufthansa 439, Dallas/Fort Worth 4:15 pm
    Thursday 6 November to Frankfurt 9:05 am Friday 7 November), and the
    numbering across a layover notice. */
module KayakLineExample {
  import opened Options
  import opened Text
  import opened KayakFormatter

  /** The first flight's line: the arrival date differs from the departure
      date, so it is printed with its weekday code after the times. */
  lemma FirstOutbound(f: Flight, dep: Stop, arr: Stop)
    requires f == Flight("439", Some(dep), Some(arr), false)
    requires dep.time == "4:15 pm" && dep.iata == "DFW" && dep.date == "Thu, Nov 6"
    requires arr.time == "9:05 am" && arr.iata == "FRA" && arr.date == "Fri, Nov 7"
    ensures KayakLine(f, 1)
         == Join(["1", "LH", "439J", "06NOV", "Q", "DFWFRA*SS1", "415P", "905A", "07NOV", "F", "/DCLH", "/E"], " ")
  {
    var middle := ["06NOV", "Q", "DFWFRA*SS1", "415P", "905A", "07NOV", "F"];
    FirstOutboundMiddle(f, dep, arr);
    FlightNumberToken(f.flightNumber);
    FirstOutboundTokens(middle);
  }

  lemma FirstOutboundMiddle(f: Flight, dep: Stop, arr: Stop)
    requires f == Flight("439", Some(dep), Some(arr), false)
    requires dep.time == "4:15 pm" && dep.iata == "DFW" && dep.date == "Thu, Nov 6"
    requires arr.time == "9:05 am" && arr.iata == "FRA" && arr.date == "Fri, Nov 7"
    ensures MiddleFields(f) == ["06NOV", "Q", "DFWFRA*SS1", "415P", "905A", "07NOV", "F"]
  {
    ThursdayDate(dep.date);
    FridayDate(arr.date);
    FourFifteen(dep.time);
    NineOhFive(arr.time);
    CityPair(dep.iata, arr.iata);
    var times := [FormatTime(dep.time), FormatTime(arr.time)];
    TwoTimes(times);
    var dt := FormatDateToken(ParseDateParts(dep.date));
    var at := FormatDateToken(ParseDateParts(arr.date));
    ArrivalShown(dt, at, DowOf(ParseDateParts(arr.date)));
    MiddleConcat([dt, DowOf(ParseDateParts(dep.date)), dep.iata + arr.iata + "*SS1"], Compact(times),
                 ArrivalPieces(dt, at, DowOf(ParseDateParts(arr.date))));
  }

  lemma ThursdayDate(d: string)
    requires d == "Thu, Nov 6"
    ensures FormatDateToken(ParseDateParts(d)) == "06NOV" && DowOf(ParseDateParts(d)) == "Q"
  {
    assert NatToString(6) == "6";
    assert d == "Thu" + ", " + "Nov" + " " + NatToString(6);
    SampleDate(d, "Thu", "Nov", 6, "06NOV", "Q");
  }

  lemma FridayDate(d: string)
    requires d == "Fri, Nov 7"
    ensures FormatDateToken(ParseDateParts(d)) == "07NOV" && DowOf(ParseDateParts(d)) == "F"
  {
    assert NatToString(7) == "7";
    assert d == "Fri" + ", " + "Nov" + " " + NatToString(7);
    SampleDate(d, "Fri", "Nov", 7, "07NOV", "F");
  }

  lemma CityPair(a: string, b: string)
    requires a == "DFW" && b == "FRA"
    ensures a + b + "*SS1" == "DFWFRA*SS1"
  {
  }

  lemma TwoTimes(times: seq<string>)
    requires times == ["415P", "905A"]
    ensures Compact(times) == ["415P", "905A"]
  {
    CompactOfNonEmpty(times);
  }

  lemma ArrivalShown(dt: string, at: string, dow: string)
    requires dt == "06NOV" && at == "07NOV" && dow == "F"
    ensures ArrivalPieces(dt, at, dow) == ["07NOV", "F"]
  {
  }

  lemma MiddleConcat(a: seq<string>, b: seq<string>, c: seq<string>)
    requires a == ["06NOV", "Q", "DFWFRA*SS1"] && b == ["415P", "905A"] && c == ["07NOV", "F"]
    ensures a + b + c == ["06NOV", "Q", "DFWFRA*SS1", "415P", "905A", "07NOV", "F"]
  {
  }

  /** A date of the sample data parses into its token and weekday code. */
  lemma SampleDate(d: string, weekday: string, month: string, day: nat, token: string, code: string)
    requires (weekday, month, day, token, code) == ("Thu", "Nov", 6, "06NOV", "Q")
          || (weekday, month, day, token, code) == ("Fri", "Nov", 7, "07NOV", "F")
    requires d == weekday + ", " + month + " " + NatToString(day)
    ensures FormatDateToken(ParseDateParts(d)) == token
    ensures DowOf(ParseDateParts(d)) == code
  {
    SampleWords(weekday, month);
    ParseRenderedDate(weekday, month, day);
    SampleDateLiterals();
  }

  lemma SampleWords(weekday: string, month: string)
    requires weekday == "Thu" || weekday == "Fri"
    requires month == "Nov"
    ensures IsWord(weekday) && ',' !in weekday && IsWord(month) && ',' !in month
  {
  }

  lemma SampleDateLiterals()
    ensures PadStart(NatToString(6), 2, '0') == "06" && PadStart(NatToString(7), 2, '0') == "07"
    ensures ToUpper(Take("Nov", 3)) == "NOV"
    ensures WeekdayCode(ToUpper(Take("Thu", 3))) == "Q" && WeekdayCode(ToUpper(Take("Fri", 3))) == "F"
    ensures "06" + "NOV" == "06NOV" && "07" + "NOV" == "07NOV"
  {
    assert NatToString(6) == "6" && NatToString(7) == "7";
    assert ToUpper(Take("Thu", 3)) == "THU";
    assert ToUpper(Take("Fri", 3)) == "FRI";
  }

  lemma FlightNumberToken(n: string)
    requires n == "439"
    ensures FlightToken(n) == "439J"
  {
    TrimOfTrimmed("439J");
  }

  lemma FirstOutboundTokens(middle: seq<string>)
    requires middle == ["06NOV", "Q", "DFWFRA*SS1", "415P", "905A", "07NOV", "F"]
    ensures LineTokens(1, "439J", middle)
         == ["1", "LH", "439J", "06NOV", "Q", "DFWFRA*SS1", "415P", "905A", "07NOV", "F", "/DCLH", "/E"]
  {
    LineTokensOfFields(1, "439J", middle);
    assert NatToString(1) == "1";
  }

  /** With every middle field present, the tokens are the frame around
      them in order. */
  lemma LineTokensOfFields(index: nat, flight: string, middle: seq<string>)
    requires flight != ""
    requires forall i :: 0 <= i < |middle| ==> middle[i] != ""
    ensures LineTokens(index, flight, middle) == [NatToString(index), "LH", flight] + middle + ["/DCLH", "/E"]
  {
    CompactFrame([NatToString(index), "LH", flight], middle, ["/DCLH", "/E"]);
    CompactOfNonEmpty(middle);
  }

  /** A layover notice between two flights is not a flight, so the flight
      after it is the second flight and its line is numbered 2 (the
      numbering of `KayakLines`). */
  lemma FlightsAroundGap(es: seq<Option<Flight>>, a: Flight, gap: Option<Flight>, b: Flight)
    requires es == [Some(a), gap, Some(b)]
    requires !a.layover && !b.layover && !IsFlight(gap)
    ensures Flights(es) == [a, b]
  {
    assert es[..2] == [Some(a), gap];
    assert [Some(a), gap][..1] == [Some(a)];
    assert [Some(a)][..0] == [];
    assert Flights([Some(a)]) == [a];
    assert Flights([Some(a), gap]) == [a];
    assert Flights(es) == Flights(es[..2]) + [b];
  }
}

=== FILE: line.dfy ===
/** The itinerary-line assembler of docs/demo-formatter.js: booking class,
    flight designator, the pieces of one `*I` line, and `formatSegmentsToI`
    over a list of segments. */
module GdsLine {
  import opened Options
  import opened Text
  import GdsTime
  import opened GdsCalendar
  import opened GdsZoned

  /** One end of a flight. `airport` is `None` when the record has no
      airport (template literals print it as `undefined`); `clock` is what
      `Intl.DateTimeFormat` makes of the instant in the endpoint's time zone,
      `None` when it throws (an invalid date or time zone). */
  datatype Endpoint = Endpoint(airport: Option<string>, iso: IsoInstant, clock: Option<WallClock>)

  datatype Codeshare = Codeshare(code: string, name: string, flightNumber: string)

  /** A flight segment; an empty string is an absent (falsy) field. */
  datatype Segment = Segment(
    marketingCarrier: string,
    airlineCode: string,
    flightNumber: string,
    number: string,
    bookingClass: string,
    businessFallbackClass: string,
    cabin: string,
    durationMinutes: Option<int>,
    departure: Option<Endpoint>,
    arrival: Option<Endpoint>,
    status: string,
    eticketable: Option<bool>,
    operatingCarrier: string,
    operatingCarrierName: string,
    codeshare: Option<Codeshare>,
    freeText: string)

  datatype FormatOptions = FormatOptions(forceShortFirstAsBusiness: bool, simulateCodeshare: bool)

  // -----------------------------------------------------------------------
  // resolveBookingClass

  /** `CABIN_FALLBACK_BOOKING[key]`, empty for any other key. */
  function CabinFallback(key: string): (c: string)
    ensures c == "" <==> key !in ["FIRST", "BUSINESS", "PREMIUM", "ECONOMY"]
    ensures c != "" ==> |c| == 1
  {
    if key == "FIRST" then "F"
    else if key == "BUSINESS" then "J"
    else if key == "PREMIUM" then "N"
    else if key == "ECONOMY" then "Y"
    else ""
  }

  /** `toCabinKey`: the trimmed, upper-cased cabin name. */
  function CabinKey(cabin: string): string {
    UpperTrim(cabin)
  }

  /** The explicit booking class, trimmed and upper-cased. */
  function ExplicitClass(bookingClass: string): string {
    UpperTrim(bookingClass)
  }

  /** A first-class segment shorter than six hours, under the option that
      sells such flights as business. */
  predicate ShortFirst(seg: Segment, opts: FormatOptions) {
    && opts.forceShortFirstAsBusiness
    && CabinKey(seg.cabin) == "FIRST"
    && seg.durationMinutes.Some? && seg.durationMinutes.value < 360
  }

  /** `resolveBookingClass`: the short-first override, else the explicit
      class, else the cabin's fallback letter, else `Y`; never empty. */
  function ResolveBookingClass(seg: Segment, opts: FormatOptions): (c: string)
    ensures c != ""
    ensures ShortFirst(seg, opts) ==>
      c == (if seg.businessFallbackClass != "" then seg.businessFallbackClass else "J")
    ensures !ShortFirst(seg, opts) && ExplicitClass(seg.bookingClass) != "" ==>
      c == ExplicitClass(seg.bookingClass)
    ensures !ShortFirst(seg, opts) && ExplicitClass(seg.bookingClass) == "" ==>
      c == (if CabinFallback(CabinKey(seg.cabin)) != "" then CabinFallback(CabinKey(seg.cabin)) else "Y")
  {
    var explicit := ExplicitClass(seg.bookingClass);
    var cabinKey := CabinKey(seg.cabin);
    var chosen :=
      if ShortFirst(seg, opts) then
        (if seg.businessFallbackClass != "" then seg.businessFallbackClass else "J")
      else explicit;
    var withCabin :=
      if chosen == "" && cabinKey != "" && CabinFallback(cabinKey) != "" then CabinFallback(cabinKey)
      else chosen;
    if withCabin == "" then "Y" else withCabin
  }

  // -----------------------------------------------------------------------
  // formatFlightDesignator

  /** `formatFlightDesignator`: carrier, number and class, with a space
      after the carrier only when the trimmed number is shorter than four
      characters; the whole trimmed. */
  function FormatFlightDesignator(carrier: string, flightNumber: string, bookingClass: string): (d: string)
    ensures IsTrimmed(d)
  {
    var n := Trim(flightNumber);
    if carrier == "" then Trim(n + bookingClass)
    else if |n| < 4 then Trim(carrier + " " + n + bookingClass)
    else Trim(carrier + n + bookingClass)
  }

  lemma WordConcat(a: string, b: string)
    requires IsWord(a) && NoSpace(b)
    ensures IsWord(a + b)
  {
    assert forall i :: 0 <= i < |a + b| ==> (a + b)[i] == if i < |a| then a[i] else b[i - |a|];
  }

  /** With a clean carrier, number and class, a number of up to three
      characters stands apart from the carrier and a longer one is glued to
      it; the class is always glued to the number. */
  lemma DesignatorWords(carrier: string, flightNumber: string, bookingClass: string)
    requires IsWord(carrier) && IsWord(flightNumber) && IsWord(bookingClass)
    ensures |flightNumber| < 4 ==>
      Words(FormatFlightDesignator(carrier, flightNumber, bookingClass)) == [carrier, flightNumber + bookingClass]
    ensures |flightNumber| >= 4 ==>
      Words(FormatFlightDesignator(carrier, flightNumber, bookingClass)) == [carrier + flightNumber + bookingClass]
  {
    TrimOfWord(flightNumber);
    WordConcat(flightNumber, bookingClass);
    var nc := flightNumber + bookingClass;
    if |flightNumber| < 4 {
      var s := carrier + " " + flightNumber + bookingClass;
      assert s == carrier + " " + nc;
      JoinTwo(carrier, nc, " ");
      var ws := [carrier, nc];
      assert ws[1..] == [nc] && ws[1..][1..] == [];
      WordsOfJoin(ws);
      SpacedTrimmed(carrier, nc);
      TrimOfTrimmed(s);
    } else {
      WordConcat(carrier, nc);
      assert carrier + flightNumber + bookingClass == carrier + nc;
      TrimOfWord(carrier + nc);
      WordsOfWord(carrier + nc);
    }
  }

  lemma TrimOfWord(w: string)
    requires IsWord(w)
    ensures Trim(w) == w
  {
    TrimOfTrimmed(w);
  }

  lemma SpacedTrimmed(a: string, b: string)
    requires IsWord(a) && IsWord(b)
    ensures IsTrimmed(a + " " + b)
  {
    var s := a + " " + b;
    assert s[0] == a[0];
    assert s[|s| - 1] == b[|b| - 1];
  }

  /** The two designator shapes, from the same carrier and class. */
  lemma DesignatorExamples()
    ensures FormatFlightDesignator("TK", "032", "J") == "TK 032J"
    ensures FormatFlightDesignator("LH", "4391", "J") == "LH4391J"
  {
    TrimOfWord("032");
    TrimOfWord("4391");
    TrimOfTrimmed("TK 032J");
    TrimOfTrimmed("LH4391J");
  }

  // -----------------------------------------------------------------------
  // One line

  /** The upper-cased marketing carrier, airline code or `XX`. */
  function Carrier(seg: Segment): (c: string)
    ensures c != ""
  {
    ToUpper(if seg.marketingCarrier != "" then seg.marketingCarrier
            else if seg.airlineCode != "" then seg.airlineCode
            else "XX")
  }

  /** The segment status, `SS1` when absent. */
  function Status(seg: Segment): string {
    if seg.status != "" then ToUpper(Trim(seg.status)) else "SS1"
  }

  /** An airport code as a template literal prints it. */
  function AirportText(airport: Option<string>): string {
    if airport.Some? then airport.value else "undefined"
  }

  /** `String(index + 1).padStart(2, ' ')`. */
  function Ordinal(index: nat): (o: string)
    ensures |o| >= 2
    ensures index < 9 ==> o == [' ', DigitChar(index + 1)]
    ensures index >= 9 ==> o == NatToString(index + 1)
  {
    var n := NatToString(index + 1);
    if index < 9 then
      assert n == [DigitChar(index + 1)];
      PadStart(n, 2, ' ')
    else
      PadStart(n, 2, ' ')
  }

  /** The `//OPERATED BY` annotation: the simulated codeshare when enabled
      and it has a code, otherwise an operating carrier that differs from
      the upper-cased marketing carrier, otherwise none. */
  function Annotation(seg: Segment, carrier: string, opts: FormatOptions): (a: seq<string>)
    ensures |a| <= 1
    ensures opts.simulateCodeshare && seg.codeshare.Some? && seg.codeshare.value.code != "" ==>
      a == [CodeshareNote(seg.codeshare.value)]
    ensures !(opts.simulateCodeshare && seg.codeshare.Some? && seg.codeshare.value.code != "") ==>
      (a != [] <==> seg.operatingCarrier != "" && seg.operatingCarrier != carrier)
  {
    if opts.simulateCodeshare && seg.codeshare.Some? && seg.codeshare.value.code != "" then
      [CodeshareNote(seg.codeshare.value)]
    else if seg.operatingCarrier != "" && seg.operatingCarrier != carrier then
      ["//OPERATED BY " + seg.operatingCarrier
       + (if seg.operatingCarrierName != "" then " " + seg.operatingCarrierName else "")]
    else []
  }

  function CodeshareNote(cs: Codeshare): string {
    "//OPERATED BY " + cs.code
    + (if cs.flightNumber != "" then " " + cs.flightNumber else "")
    + (if cs.name != "" then " " + cs.name else "")
  }

  /** A segment that `formatSegmentsToI` does not skip. */
  predicate Kept(s: Option<Segment>) {
    s.Some? && s.value.departure.Some? && s.value.arrival.Some?
  }

  /** The flight number, falling back to the segment's `number`. */
  function FlightNumber(seg: Segment): string {
    if seg.flightNumber != "" then seg.flightNumber else seg.number
  }

  /** The designator of the segment: carrier, flight number and the
      resolved booking class. */
  function Designator(seg: Segment, opts: FormatOptions): string {
    FormatFlightDesignator(Carrier(seg), FlightNumber(seg), ResolveBookingClass(seg, opts))
  }

  /** The city pair and the status, `FRAJFK*SS1`. */
  function CityField(seg: Segment): string
    requires seg.departure.Some? && seg.arrival.Some?
  {
    AirportText(seg.departure.value.airport) + AirportText(seg.arrival.value.airport) + "*" + Status(seg)
  }

  /** The day offset of the arrival, computed from both ends' zoned parts
      and instants. */
  function ArrivalOffset(seg: Segment, dp: ZonedParts, ap: ZonedParts): string
    requires seg.departure.Some? && seg.arrival.Some?
  {
    CalculateArrivalOffset(Some(dp), Some(ap), seg.departure.value.iso, seg.arrival.value.iso)
  }

  /** The fields after the two times, in order: the offset if any, `/DC`
      with the carrier, `/E` unless e-ticketing is ruled out, the
      annotation, and the free text if any. */
  function TailPieces(seg: Segment, carrier: string, offset: string, opts: FormatOptions): (ts: seq<string>)
    ensures |ts| >= 1
    ensures var k := if offset != "" then 1 else 0;
            var e := if seg.eticketable != Some(false) then 1 else 0;
            var f := if seg.freeText != "" then 1 else 0;
            var a := Annotation(seg, carrier, opts);
      && |ts| == k + 1 + e + |a| + f
      && (offset != "" ==> ts[0] == offset)
      && ts[k] == "/DC" + carrier
      && (e == 1 ==> ts[k + 1] == "/E")
      && (a != [] ==> ts[k + 1 + e] == a[0])
      && (f == 1 ==> ts[|ts| - 1] == seg.freeText)
  {
    (if offset != "" then [offset] else [])
    + ["/DC" + carrier]
    + (if seg.eticketable != Some(false) then ["/E"] else [])
    + Annotation(seg, carrier, opts)
    + (if seg.freeText != "" then [seg.freeText] else [])
  }

  /** The pieces of the line for the segment at `index`, given the zoned
      parts of both ends: the ordinal, the designator, the departure date,
      the city field, the two times, then the trailing fields. */
  function Pieces(seg: Segment, index: nat, opts: FormatOptions, dp: ZonedParts, ap: ZonedParts): (ps: seq<string>)
    requires seg.departure.Some? && seg.arrival.Some?
    ensures |ps| >= 7
    ensures ps[..6] == [ Ordinal(index), Designator(seg, opts), FormatDateToken(Some(dp)), CityField(seg),
                         GdsTime.FormatGdsTime(dp.gdsTime), GdsTime.FormatGdsTime(ap.gdsTime) ]
    ensures ps[6..] == TailPieces(seg, Carrier(seg), ArrivalOffset(seg, dp, ap), opts)
  {
    var head := [ Ordinal(index), Designator(seg, opts), FormatDateToken(Some(dp)), CityField(seg),
                  GdsTime.FormatGdsTime(dp.gdsTime), GdsTime.FormatGdsTime(ap.gdsTime) ];
    var tail := TailPieces(seg, Carrier(seg), ArrivalOffset(seg, dp, ap), opts);
    SplitConcat(head, tail);
    head + tail
  }

  /** The line for a kept segment, `None` when formatting either end's
      instant throws. */
  function SegmentLine(seg: Segment, index: nat, opts: FormatOptions): (l: Option<string>)
    requires seg.departure.Some? && seg.arrival.Some?
    ensures l.Some? <==> seg.departure.value.clock.Some? && seg.arrival.value.clock.Some?
  {
    var dep := seg.departure.value;
    var arr := seg.arrival.value;
    if dep.clock.None? || arr.clock.None? then None
    else Some(Join(Pieces(seg, index, opts, ZonedPartsOf(dep.clock.value), ZonedPartsOf(arr.clock.value)), " "))
  }

  /** The first piece is the ordinal and, with free text, the last is
      that text. */
  lemma PiecesEnds(seg: Segment, index: nat, opts: FormatOptions, dp: ZonedParts, ap: ZonedParts)
    requires seg.departure.Some? && seg.arrival.Some?
    ensures var ps := Pieces(seg, index, opts, dp, ap);
      && ps[0] == Ordinal(index)
      && (seg.freeText != "" ==> ps[|ps| - 1] == seg.freeText)
  {
    var ps := Pieces(seg, index, opts, dp, ap);
    assert ps[0] == ps[..6][0];
    var tail := ps[6..];
    assert ps[|ps| - 1] == tail[|tail| - 1];
  }

  /** The joined pieces open with the ordinal and a space and, with free
      text, close with a space and that text. */
  lemma JoinedPiecesFrame(seg: Segment, index: nat, opts: FormatOptions, dp: ZonedParts, ap: ZonedParts)
    requires seg.departure.Some? && seg.arrival.Some?
    ensures var l := Join(Pieces(seg, index, opts, dp, ap), " ");
      && OpensWith(l, Ordinal(index) + " ")
      && (seg.freeText != "" ==> ClosesWith(l, " " + seg.freeText))
  {
    var ps := Pieces(seg, index, opts, dp, ap);
    PiecesEnds(seg, index, opts, dp, ap);
    JoinFrame(ps, " ", Ordinal(index), ps[|ps| - 1]);
  }

  /** A formatted line opens with its ordinal and a space and, when the
      segment carries free text, closes with a space and that text. */
  lemma LineFrame(seg: Segment, index: nat, opts: FormatOptions)
    requires seg.departure.Some? && seg.arrival.Some?
    requires seg.departure.value.clock.Some? && seg.arrival.value.clock.Some?
    ensures var l := SegmentLine(seg, index, opts).value;
      && OpensWith(l, Ordinal(index) + " ")
      && (seg.freeText != "" ==> ClosesWith(l, " " + seg.freeText))
  {
    JoinedPiecesFrame(seg, index, opts, ZonedPartsOf(seg.departure.value.clock.value),
                      ZonedPartsOf(seg.arrival.value.clock.value));
  }

  // -----------------------------------------------------------------------
  // formatSegmentsToI

  /** The lines `line` gives the kept segments, in input order, each
      rendered with its input position; `None` as soon as one fails. */
  function Collect(segs: seq<Option<Segment>>, line: (Segment, nat) -> Option<string>): (r: Option<seq<string>>)
    ensures r.Some? ==> |r.value| == |Positions(segs, Kept)|
    ensures r.Some? ==> forall j :: 0 <= j < |r.value| ==>
      line(segs[Positions(segs, Kept)[j]].value, Positions(segs, Kept)[j]) == Some(r.value[j])
    ensures r.None? <==> exists k :: 0 <= k < |segs| && Kept(segs[k]) && line(segs[k].value, k).None?
    decreases |segs|
  {
    if |segs| == 0 then Some([])
    else
      var i := |segs| - 1;
      var prefix := segs[..i];
      assert forall k :: 0 <= k < i ==> segs[k] == prefix[k];
      var prev := Collect(prefix, line);
      assert Positions(segs, Kept) == if Kept(segs[i]) then Positions(prefix, Kept) + [i] else Positions(prefix, Kept);
      if prev.None? then None
      else if !Kept(segs[i]) then prev
      else
        match line(segs[i].value, i)
        case None => None
        case Some(l) => Some(prev.value + [l])
  }

  /** `SegmentLine` for any segment, `None` for one that is not kept. */
  function LineOf(seg: Segment, index: nat, opts: FormatOptions): (l: Option<string>)
    ensures seg.departure.Some? && seg.arrival.Some? ==> l == SegmentLine(seg, index, opts)
  {
    if seg.departure.Some? && seg.arrival.Some? then SegmentLine(seg, index, opts) else None
  }

  /** The lines of the kept segments in input order, each numbered by its
      position in the input; `None` when some kept segment throws. */
  function Lines(segs: seq<Option<Segment>>, opts: FormatOptions): (r: Option<seq<string>>)
    ensures r.Some? ==> |r.value| == |Positions(segs, Kept)|
    ensures r.Some? ==> forall j :: 0 <= j < |r.value| ==>
      SegmentLine(segs[Positions(segs, Kept)[j]].value, Positions(segs, Kept)[j], opts) == Some(r.value[j])
    ensures r.None? <==> exists k :: 0 <= k < |segs| && Kept(segs[k]) && SegmentLine(segs[k].value, k, opts).None?
  {
    Collect(segs, (seg: Segment, index: nat) => LineOf(seg, index, opts))
  }

  /** A segment without an arrival leaves a gap in the numbering: the line
      after it keeps its own position, ` 3`, rather than closing up to ` 2`. */
  lemma GapKeepsPosition(a: Segment, gap: Segment, b: Segment, opts: FormatOptions)
    requires a.departure.Some? && a.arrival.Some? && b.departure.Some? && b.arrival.Some?
    requires a.departure.value.clock.Some? && a.arrival.value.clock.Some?
    requires b.departure.value.clock.Some? && b.arrival.value.clock.Some?
    requires gap.arrival.None?
    ensures Lines([Some(a), Some(gap), Some(b)], opts) == Some([SegmentLine(a, 0, opts).value, SegmentLine(b, 2, opts).value])
    ensures Ordinal(0) == " 1" && Ordinal(2) == " 3"
  {
    var segs := [Some(a), Some(gap), Some(b)];
    KeptAroundGap(segs);
    Lines3(segs, opts);
    OrdinalSmall(0);
    OrdinalSmall(2);
  }

  lemma KeptAroundGap(segs: seq<Option<Segment>>)
    requires |segs| == 3 && Kept(segs[0]) && !Kept(segs[1]) && Kept(segs[2])
    ensures Positions(segs, Kept) == [0, 2]
  {
    assert segs[..2][..1] == [segs[0]];
    assert [segs[0]][..0] == [];
    assert Positions([segs[0]], Kept) == [0];
    assert Positions(segs[..2], Kept) == [0];
  }

  lemma Lines3(segs: seq<Option<Segment>>, opts: FormatOptions)
    requires |segs| == 3
    requires Kept(segs[0]) && !Kept(segs[1]) && Kept(segs[2])
    requires segs[0].value.departure.value.clock.Some? && segs[0].value.arrival.value.clock.Some?
    requires segs[2].value.departure.value.clock.Some? && segs[2].value.arrival.value.clock.Some?
    ensures Lines(segs, opts) == Some([SegmentLine(segs[0].value, 0, opts).value, SegmentLine(segs[2].value, 2, opts).value])
  {
    var line := (seg: Segment, index: nat) => LineOf(seg, index, opts);
    assert line(segs[0].value, 0) == SegmentLine(segs[0].value, 0, opts);
    assert line(segs[2].value, 2) == SegmentLine(segs[2].value, 2, opts);
    Collect3(segs, line);
  }

  /** Three entries of which the middle one is not kept collect to the
      first and the last line. */
  lemma Collect3(segs: seq<Option<Segment>>, line: (Segment, nat) -> Option<string>)
    requires |segs| == 3
    requires Kept(segs[0]) && !Kept(segs[1]) && Kept(segs[2])
    requires line(segs[0].value, 0).Some? && line(segs[2].value, 2).Some?
    ensures Collect(segs, line) == Some([line(segs[0].value, 0).value, line(segs[2].value, 2).value])
  {
    var a, b := line(segs[0].value, 0).value, line(segs[2].value, 2).value;
    var one := segs[..1];
    assert one[..0] == [] && one[0] == segs[0];
    assert Collect(one[..0], line) == Some([]);
    assert [] + [a] == [a];
    assert Collect(one, line) == Some([a]);
    var two := segs[..2];
    assert two[..1] == one && two[1] == segs[1];
    assert Collect(two, line) == Some([a]);
    assert [a] + [b] == [a, b];
    assert Collect(segs, line) == Some([a, b]);
  }

  /** Positions below nine print as a space and one digit. */
  lemma OrdinalSmall(index: nat)
    requires index < 9
    ensures Ordinal(index) == [' ', DigitChar(index + 1)]
  {
    assert NatToString(index + 1) == [DigitChar(index + 1)];
  }

  /** `formatSegmentsToI`: `''` for a non-array, otherwise the lines of the
      kept segments joined by newlines; `None` when it throws. */
  method FormatSegmentsToI(input: Option<seq<Option<Segment>>>, opts: FormatOptions) returns (r: Option<string>)
    ensures input.None? ==> r == Some("")
    ensures input.Some? ==> (r.Some? <==> Lines(input.value, opts).Some?)
    ensures input.Some? && r.Some? ==> r.value == Join(Lines(input.value, opts).value, "\n")
  {
    if input.None? {
      return Some("");
    }
    var segs := input.value;
    var lines: seq<string> := [];
    var i := 0;
    while i < |segs|
      invariant 0 <= i <= |segs|
      invariant Lines(segs[..i], opts) == Some(lines)
    {
      assert segs[..i + 1][..i] == segs[..i];
      if Kept(segs[i]) {
        var line := SegmentLine(segs[i].value, i, opts);
        if line.None? {
          assert Lines(segs[..i + 1], opts).None?;
          LinesNoneExtends(segs, i + 1, opts);
          return None;
        }
        lines := lines + [line.value];
      }
      i := i + 1;
    }
    assert segs[..|segs|] == segs;
    return Some(Join(lines, "\n"));
  }

  /** Once a prefix throws, the whole list throws. */
  lemma LinesNoneExtends(segs: seq<Option<Segment>>, n: nat, opts: FormatOptions)
    requires n <= |segs| && Lines(segs[..n], opts).None?
    ensures Lines(segs, opts).None?
  {
    var k :| 0 <= k < n && Kept(segs[..n][k]) && SegmentLine(segs[..n][k].value, k, opts).None?;
    assert segs[k] == segs[..n][k];
  }
}

=== FILE: text.dfy ===
/** The optional value used wherever the JavaScript source works with `null`,
    `undefined` or `NaN` in place of a value. */
module Options {

  datatype Option<+T> = None | Some(value: T)
}

/** The JavaScript string built-ins the formatters rely on, stated over
    `seq<char>`: `trim`, ASCII case mapping, `padStart`, `parseInt(_, 10)`,
    `split(/\s+/)` followed by `filter(Boolean)`, `join`, and the
    `replace(/^0+(\d)/, '$1')` idiom. */
module Text {
  import opened Options

  /** JavaScript's WhiteSpace and LineTerminator code points: what `trim`
      removes and what `\s` matches. */
  predicate IsSpace(c: char) {
    || c == '\t' || c == '\n' || c == '\U{B}' || c == '\U{C}' || c == '\r' || c == ' '
    || c == '\U{A0}' || c == '\U{1680}' || ('\U{2000}' <= c <= '\U{200A}')
    || c == '\U{2028}' || c == '\U{2029}' || c == '\U{202F}' || c == '\U{205F}'
    || c == '\U{3000}' || c == '\U{FEFF}'
  }

  predicate IsDigit(c: char) {
    '0' <= c <= '9'
  }

  predicate AllDigits(s: string) {
    forall i :: 0 <= i < |s| ==> IsDigit(s[i])
  }

  predicate NoSpace(s: string) {
    forall i :: 0 <= i < |s| ==> !IsSpace(s[i])
  }

  /** A string with no white space at either end: what `trim` yields. */
  predicate IsTrimmed(s: string) {
    |s| == 0 || (!IsSpace(s[0]) && !IsSpace(s[|s| - 1]))
  }

  /** `s.slice(0, n)`: the first `n` characters, or all of a shorter `s`. */
  function Take(s: string, n: nat): (r: string)
    ensures |r| == if |s| < n then |s| else n
    ensures forall i :: 0 <= i < |r| ==> r[i] == s[i]
  {
    if |s| <= n then s else s[..n]
  }

  // ---------------------------------------------------------------------
  // trim

  function TrimStart(s: string): (r: string)
    ensures |r| <= |s|
    ensures |r| == 0 || !IsSpace(r[0])
  {
    if |s| > 0 && IsSpace(s[0]) then TrimStart(s[1..]) else s
  }

  function TrimEnd(s: string): (r: string)
    ensures |r| <= |s| && (|r| == 0 || r[0] == s[0])
    ensures |r| == 0 || !IsSpace(r[|r| - 1])
  {
    if |s| > 0 && IsSpace(s[|s| - 1]) then TrimEnd(s[..|s| - 1]) else s
  }

  /** `String.prototype.trim`. */
  function Trim(s: string): (r: string)
    ensures IsTrimmed(r)
    ensures |r| <= |s|
    ensures NoSpace(s) ==> r == s
  {
    TrimEnd(TrimStart(s))
  }

  lemma TrimStartOfClean(s: string)
    requires |s| == 0 || !IsSpace(s[0])
    ensures TrimStart(s) == s
  {
  }

  lemma TrimEndOfClean(s: string)
    requires |s| == 0 || !IsSpace(s[|s| - 1])
    ensures TrimEnd(s) == s
  {
  }

  /** `trim` leaves a string with clean ends alone, so it is idempotent. */
  lemma TrimOfTrimmed(s: string)
    requires IsTrimmed(s)
    ensures Trim(s) == s
  {
    TrimStartOfClean(s);
    TrimEndOfClean(s);
  }

  /** A string ending in a non-space character keeps that ending when
      trimmed. */
  lemma TrimKeepsLast(s: string)
    requires |s| > 0 && !IsSpace(s[|s| - 1])
    ensures Trim(s) != "" && Trim(s)[|Trim(s)| - 1] == s[|s| - 1]
  {
    TrimStartKeepsLast(s);
    TrimEndOfClean(TrimStart(s));
  }

  lemma {:induction false} TrimStartKeepsLast(s: string)
    requires |s| > 0 && !IsSpace(s[|s| - 1])
    ensures TrimStart(s) != "" && TrimStart(s)[|TrimStart(s)| - 1] == s[|s| - 1]
    decreases |s|
  {
    if IsSpace(s[0]) {
      TrimStartKeepsLast(s[1..]);
    }
  }

  lemma TrimIdempotent(s: string)
    ensures Trim(Trim(s)) == Trim(s)
  {
    TrimOfTrimmed(Trim(s));
  }

  // ---------------------------------------------------------------------
  // case mapping (ASCII letters only)

  function UpperChar(c: char): (r: char)
    ensures IsSpace(r) <==> IsSpace(c)
    ensures IsDigit(r) <==> IsDigit(c)
  {
    if 'a' <= c <= 'z' then (c as int - 32) as char else c
  }

  function LowerChar(c: char): (r: char)
    ensures IsSpace(r) <==> IsSpace(c)
    ensures IsDigit(r) <==> IsDigit(c)
  {
    if 'A' <= c <= 'Z' then (c as int + 32) as char else c
  }

  /** `String.prototype.toUpperCase`, restricted to ASCII letters. */
  function ToUpper(s: string): (r: string)
    ensures |r| == |s|
    ensures forall i :: 0 <= i < |s| ==> r[i] == UpperChar(s[i])
  {
    seq(|s|, i requires 0 <= i < |s| => UpperChar(s[i]))
  }

  /** `String.prototype.toLowerCase`, restricted to ASCII letters. */
  function ToLower(s: string): (r: string)
    ensures |r| == |s|
    ensures forall i :: 0 <= i < |s| ==> r[i] == LowerChar(s[i])
  {
    seq(|s|, i requires 0 <= i < |s| => LowerChar(s[i]))
  }

  lemma ToUpperEmpty(s: string)
    ensures ToUpper(s) == [] <==> s == []
  {
  }

  lemma ToUpperKeepsSpaces(s: string)
    ensures NoSpace(ToUpper(s)) <==> NoSpace(s)
    ensures IsTrimmed(ToUpper(s)) <==> IsTrimmed(s)
  {
  }
  /** `s ? String(s).trim().toUpperCase() : ''`: an empty value stays
      empty and anything else is trimmed and upper-cased; the result is
      empty exactly when the value is blank. */
  function UpperTrim(s: string): (r: string)
    ensures IsTrimmed(r)
    ensures r == "" <==> Trim(s) == ""
  {
    if s == "" then "" else
      var t := Trim(s);
      ToUpperKeepsSpaces(t);
      ToUpper(t)
  }

  // ---------------------------------------------------------------------
  // decimal numerals

  function DigitChar(d: nat): (c: char)
    requires d < 10
    ensures IsDigit(c) && c as int - '0' as int == d
  {
    ('0' as int + d) as char
  }

  function DigitValue(c: char): (d: nat)
    requires IsDigit(c)
    ensures d < 10
  {
    c as int - '0' as int
  }

  /** `String(n)` for a non-negative integer: decimal, no leading zero. */
  function NatToString(n: nat): (r: string)
    ensures 1 <= |r| && AllDigits(r)
    ensures r[0] != '0' || n == 0
    ensures n < 10 <==> |r| == 1
    decreases n
  {
    if n < 10 then [DigitChar(n)] else NatToString(n / 10) + [DigitChar(n % 10)]
  }

  /** The value of a run of decimal digits. */
  function DigitsValue(s: string): nat
    requires AllDigits(s)
  {
    if |s| == 0 then 0 else DigitsValue(s[..|s| - 1]) * 10 + DigitValue(s[|s| - 1])
  }

  /** Reading a numeral back gives the number it was written from. */
  lemma {:induction false} NatToStringRoundTrip(n: nat)
    ensures DigitsValue(NatToString(n)) == n
    decreases n
  {
    var r := NatToString(n);
    if n >= 10 {
      NatToStringRoundTrip(n / 10);
      assert r[..|r| - 1] == NatToString(n / 10);
    }
  }

  lemma NatToStringInjective(m: nat, n: nat)
    requires NatToString(m) == NatToString(n)
    ensures m == n
  {
    NatToStringRoundTrip(m);
    NatToStringRoundTrip(n);
  }

  /** `String(n).padStart(width, [c])`. */
  function PadStart(s: string, width: nat, c: char): (r: string)
    ensures |r| == if |s| >= width then |s| else width
    ensures r[|r| - |s|..] == s
    ensures forall i :: 0 <= i < |r| - |s| ==> r[i] == c
  {
    if |s| >= width then s else seq(width - |s|, _ => c) + s
  }

  /** A two-digit, zero-padded numeral: `String(n).padStart(2, '0')` for a
      number below 100 (see `Pad2IsPadStart`). */
  function Pad2(n: nat): (r: string)
    requires n < 100
    ensures |r| == 2 && AllDigits(r) && DigitsValue(r) == n
  {
    var r := [DigitChar(n / 10), DigitChar(n % 10)];
    assert r[..1] == [DigitChar(n / 10)];
    assert DigitsValue(r[..1]) == n / 10 by {
      assert r[..1][..0] == [];
    }
    assert DigitsValue(r) == (n / 10) * 10 + n % 10;
    r
  }

  lemma Pad2IsPadStart(n: nat)
    requires n < 100
    ensures Pad2(n) == PadStart(NatToString(n), 2, '0')
  {
    if n >= 10 {
      assert NatToString(n) == NatToString(n / 10) + [DigitChar(n % 10)];
      assert NatToString(n / 10) == [DigitChar(n / 10)];
    }
  }

  /** `String(i)` for any integer. */
  function IntToString(i: int): (r: string)
    ensures 1 <= |r|
  {
    if i < 0 then "-" + NatToString(-i) else NatToString(i)
  }

  // ---------------------------------------------------------------------
  // parseInt(s, 10)

  function DigitRun(s: string): (k: nat)
    ensures k <= |s| && AllDigits(s[..k])
    ensures k == |s| || !IsDigit(s[k])
  {
    if |s| > 0 && IsDigit(s[0]) then
      var k := 1 + DigitRun(s[1..]);
      assert s[..k] == [s[0]] + s[1..][..k - 1];
      k
    else 0
  }

  function UnsignedPrefix(s: string): Option<nat> {
    var k := DigitRun(s);
    if k == 0 then None else Some(DigitsValue(s[..k]))
  }

  /** `parseInt(s, 10)`: leading white space, an optional sign, the longest
      run of decimal digits; `None` is `NaN`. */
  function ParseInt(s: string): Option<int> {
    var t := TrimStart(s);
    if |t| > 0 && (t[0] == '-' || t[0] == '+') then
      match UnsignedPrefix(t[1..])
      case None => None
      case Some(n) => var v: int := n; Some(if t[0] == '-' then -v else v)
    else
      match UnsignedPrefix(t)
      case None => None
      case Some(n) => Some(n)
  }

  lemma ParseNatToString(n: nat, rest: string)
    requires |rest| == 0 || !IsDigit(rest[0])
    ensures UnsignedPrefix(NatToString(n) + rest) == Some(n)
  {
    var s := NatToString(n);
    var t := s + rest;
    DigitRunOfDigits(s, rest);
    assert t[..|s|] == s;
    NatToStringRoundTrip(n);
  }

  lemma {:induction false} DigitRunOfDigits(s: string, rest: string)
    requires AllDigits(s)
    requires |rest| == 0 || !IsDigit(rest[0])
    ensures DigitRun(s + rest) == |s|
    decreases |s|
  {
    if |s| > 0 {
      assert (s + rest)[1..] == s[1..] + rest;
      DigitRunOfDigits(s[1..], rest);
    } else {
      assert s + rest == rest;
    }
  }

  /** `parseInt` reads back what `String` wrote, for every integer. */
  lemma ParseIntToString(i: int)
    ensures ParseInt(IntToString(i)) == Some(i)
  {
    var s := IntToString(i);
    if i < 0 {
      var n := NatToString(-i);
      ParseNatToString(-i, "");
      assert n + "" == n;
      assert s == "-" + n && s[1..] == n;
      TrimStartOfClean(s);
      assert UnsignedPrefix(s[1..]) == Some(-i);
    } else {
      ParseNatToString(i, "");
      assert NatToString(i) + "" == NatToString(i);
      TrimStartOfClean(s);
      assert !(s[0] == '-' || s[0] == '+');
      assert UnsignedPrefix(s) == Some(i);
    }
  }

  /** `parseInt` reads a numeral back even when text follows it. */
  lemma ParseIntOfNumeral(n: nat, rest: string)
    requires |rest| == 0 || !IsDigit(rest[0])
    ensures ParseInt(NatToString(n) + rest) == Some(n)
  {
    var s := NatToString(n) + rest;
    ParseNatToString(n, rest);
    assert s[0] == NatToString(n)[0];
    DigitNotSpace(s[0]);
    TrimStartOfClean(s);
  }

  /** `parseInt` reads a zero-padded two-digit field as its number. */
  lemma ParseIntOfPad2(n: nat)
    requires n < 100
    ensures ParseInt(Pad2(n)) == Some(n)
  {
    var s := Pad2(n);
    DigitNotSpace(s[0]);
    TrimStartOfClean(s);
    DigitRunOfDigits(s, "");
    assert s + "" == s;
    assert s[..2] == s;
  }

  // ---------------------------------------------------------------------
  // replace(/^0+(\d)/, '$1')

  function ZeroRun(s: string): (k: nat)
    ensures k <= |s|
    ensures forall i :: 0 <= i < k ==> s[i] == '0'
    ensures k == |s| || s[k] != '0'
  {
    if |s| > 0 && s[0] == '0' then 1 + ZeroRun(s[1..]) else 0
  }

  /** `s.replace(/^0+(\d)/, '$1')`: the greedy zero run backs off by one
      when no digit follows it, so an all-zero run keeps its last zero. */
  function StripLeadingZeros(s: string): (r: string)
    ensures |r| <= |s|
    ensures |r| == |s| ==> r == s
    ensures |r| < |s| ==> 0 < |r| && IsDigit(r[0]) && r[|r| - 1] == s[|s| - 1]
    ensures |r| == 0 || r[0] != '0' || |r| == 1 || !IsDigit(r[1])
  {
    var k := ZeroRun(s);
    if k == 0 then s
    else if k < |s| && IsDigit(s[k]) then s[k..]
    else if k >= 2 then s[k - 1..]
    else s
  }

  lemma StripLeadingZerosIdempotent(s: string)
    ensures StripLeadingZeros(StripLeadingZeros(s)) == StripLeadingZeros(s)
  {
  }

  lemma DigitNotSpace(c: char)
    requires IsDigit(c)
    ensures !IsSpace(c)
  {
  }

  /** Dropping leading zeros keeps a trimmed string trimmed. */
  lemma StripLeadingZerosTrimmed(s: string)
    requires IsTrimmed(s)
    ensures IsTrimmed(StripLeadingZeros(s))
  {
    var r := StripLeadingZeros(s);
    if |r| < |s| {
      DigitNotSpace(r[0]);
    }
  }

  lemma StripLeadingZerosOfNumeral(n: nat, rest: string)
    requires |rest| == 0 || !IsDigit(rest[0])
    ensures StripLeadingZeros(NatToString(n) + rest) == NatToString(n) + rest
  {
    var s := NatToString(n) + rest;
    if n == 0 {
      assert ZeroRun(s) == 1 by {
        assert s[0] == '0';
        assert s[1..] == rest;
      }
    }
  }

  // ---------------------------------------------------------------------
  // split(/\s+/).filter(Boolean) and join

  function WordLen(s: string): (k: nat)
    ensures k <= |s| && NoSpace(s[..k])
    ensures k == |s| || IsSpace(s[k])
  {
    if |s| > 0 && !IsSpace(s[0]) then
      var k := 1 + WordLen(s[1..]);
      assert s[..k] == [s[0]] + s[1..][..k - 1];
      k
    else 0
  }

  /** A non-empty run of non-space characters. */
  predicate IsWord(w: string) {
    |w| > 0 && NoSpace(w)
  }

  /** Every element is a word. */
  predicate AllWords(ws: seq<string>) {
    |ws| == 0 || (IsWord(ws[0]) && AllWords(ws[1..]))
  }

  /** The non-empty pieces of `s.split(/\s+/)`: the maximal runs of
      non-space characters, in order. */
  function Words(s: string): (ws: seq<string>)
    ensures AllWords(ws)
    decreases |s|
  {
    var t := TrimStart(s);
    if |t| == 0 then []
    else
      var k := WordLen(t);
      assert k > 0;
      var w := t[..k];
      assert IsWord(w);
      var ws := [w] + Words(t[k..]);
      assert ws[1..] == Words(t[k..]);
      ws
  }

  /** `xs.join(sep)`. */
  function Join(xs: seq<string>, sep: string): string {
    if |xs| == 0 then ""
    else if |xs| == 1 then xs[0]
    else xs[0] + (sep + Join(xs[1..], sep))
  }

  /** The positions of the elements that `keep` accepts, in increasing
      order: the index form of `xs.filter(keep)`. */
  function Positions<T>(xs: seq<T>, keep: T -> bool): (ks: seq<nat>)
    ensures forall j :: 0 <= j < |ks| ==> ks[j] < |xs| && keep(xs[ks[j]])
    ensures forall j, k :: 0 <= j < k < |ks| ==> ks[j] < ks[k]
    ensures forall i :: 0 <= i < |xs| && keep(xs[i]) ==> i in ks
    decreases |xs|
  {
    if |xs| == 0 then []
    else
      var prefix := xs[..|xs| - 1];
      var ks := Positions(prefix, keep);
      assert forall j :: 0 <= j < |ks| ==> xs[ks[j]] == prefix[ks[j]];
      if keep(xs[|xs| - 1]) then ks + [|xs| - 1] else ks
  }

  predicate NonEmpty(s: string) {
    s != ""
  }

  /** `xs.filter(Boolean)` on strings: the non-empty elements, in order
      and with their repetitions. */
  function Compact(xs: seq<string>): (ys: seq<string>)
    ensures |ys| <= |xs|
    ensures forall i :: 0 <= i < |ys| ==> ys[i] != ""
    decreases |xs|
  {
    if |xs| == 0 then []
    else if xs[|xs| - 1] == "" then Compact(xs[..|xs| - 1])
    else Compact(xs[..|xs| - 1]) + [xs[|xs| - 1]]
  }

  /** `Compact` is the filter: its j-th element is the input's element at
      the j-th non-empty position, so order and repetitions are kept. */
  lemma {:induction false} CompactIsFilter(xs: seq<string>)
    ensures |Compact(xs)| == |Positions(xs, NonEmpty)|
    ensures forall j :: 0 <= j < |Compact(xs)| ==> Compact(xs)[j] == xs[Positions(xs, NonEmpty)[j]]
    decreases |xs|
  {
    if |xs| > 0 {
      var i := |xs| - 1;
      var prefix := xs[..i];
      CompactIsFilter(prefix);
      assert forall k :: 0 <= k < i ==> xs[k] == prefix[k];
      assert Positions(xs, NonEmpty)
          == if NonEmpty(xs[i]) then Positions(prefix, NonEmpty) + [i] else Positions(prefix, NonEmpty);
    }
  }

  /** A concatenation splits back into its two parts. */
  lemma SplitConcat<T>(h: seq<T>, t: seq<T>)
    ensures (h + t)[..|h|] == h && (h + t)[|h|..] == t
  {
  }

  /** Dropping empty strings distributes over concatenation. */
  lemma {:induction false} CompactAppend(xs: seq<string>, ys: seq<string>)
    ensures Compact(xs + ys) == Compact(xs) + Compact(ys)
    decreases |ys|
  {
    if |ys| == 0 {
      assert xs + ys == xs;
    } else {
      var n := |ys| - 1;
      assert (xs + ys)[..|xs + ys| - 1] == xs + ys[..n];
      assert (xs + ys)[|xs + ys| - 1] == ys[n];
      CompactAppend(xs, ys[..n]);
    }
  }

  /** A list without empty strings is left as it is. */
  lemma {:induction false} CompactOfNonEmpty(xs: seq<string>)
    requires forall i :: 0 <= i < |xs| ==> xs[i] != ""
    ensures Compact(xs) == xs
    decreases |xs|
  {
    if |xs| > 0 {
      var n := |xs| - 1;
      CompactOfNonEmpty(xs[..n]);
      assert xs[..n] + [xs[n]] == xs;
    }
  }

  /** Every element of the list is a non-empty element of the input, and
      every non-empty element of the input is kept. */
  lemma CompactMembers(xs: seq<string>)
    ensures forall y :: y in Compact(xs) ==> y in xs && y != ""
    ensures forall x :: x in xs && x != "" ==> x in Compact(xs)
  {
    var ys := Compact(xs);
    var ks := Positions(xs, NonEmpty);
    CompactIsFilter(xs);
    forall y | y in ys ensures y in xs {
      var j :| 0 <= j < |ys| && ys[j] == y;
      assert xs[ks[j]] == y;
    }
    forall x | x in xs && x != "" ensures x in ys {
      var i :| 0 <= i < |xs| && xs[i] == x;
      assert i in ks;
      var j :| 0 <= j < |ks| && ks[j] == i;
      assert ys[j] == x;
    }
  }

  /** Every element of a list of words is a word. */
  lemma {:induction false} AllWordsAt(ws: seq<string>, i: nat)
    requires AllWords(ws) && i < |ws|
    ensures IsWord(ws[i])
    decreases i
  {
    if i > 0 {
      AllWordsAt(ws[1..], i - 1);
    }
  }

  /** A list of non-empty, space-free strings is a list of words. */
  lemma {:induction false} AllWordsOf(ws: seq<string>)
    requires forall i :: 0 <= i < |ws| ==> IsWord(ws[i])
    ensures AllWords(ws)
    decreases |ws|
  {
    if |ws| > 0 {
      AllWordsOf(ws[1..]);
    }
  }

  lemma JoinTwo(a: string, b: string, sep: string)
    ensures Join([a, b], sep) == a + sep + b
  {
    assert [a, b][1..] == [b];
  }

  lemma JoinAppend(xs: seq<string>, x: string, sep: string)
    requires |xs| > 0
    ensures Join(xs + [x], sep) == Join(xs, sep) + sep + x
  {
    if |xs| == 1 {
      JoinTwo(xs[0], x, sep);
    } else {
      assert (xs + [x])[1..] == xs[1..] + [x];
      JoinAppend(xs[1..], x, sep);
    }
  }
  /** `s` starts with `p`. */
  predicate OpensWith(s: string, p: string) {
    |p| <= |s| && s[..|p|] == p
  }

  /** `s` ends with `p`. */
  predicate ClosesWith(s: string, p: string) {
    |p| <= |s| && s[|s| - |p|..] == p
  }

  /** A join of two or more parts opens with its first part and the
      separator and closes with the separator and its last part. */
  lemma JoinFrame(xs: seq<string>, sep: string, first: string, last: string)
    requires |xs| >= 2 && xs[0] == first && xs[|xs| - 1] == last
    ensures OpensWith(Join(xs, sep), first + sep)
    ensures ClosesWith(Join(xs, sep), sep + last)
  {
    JoinOpens(xs, sep);
    JoinCloses(xs, sep);
  }

  /** A join of two or more parts opens with the first part and the
      separator. */
  lemma JoinOpens(xs: seq<string>, sep: string)
    requires |xs| >= 2
    ensures xs[0] + sep <= Join(xs, sep)
  {
    SplitConcat(xs[0] + sep, Join(xs[1..], sep));
  }

  /** A join of two or more parts closes with the separator and the last
      part. */
  lemma JoinCloses(xs: seq<string>, sep: string)
    requires |xs| >= 2
    ensures var j, n := Join(xs, sep), |xs[|xs| - 1]| + |sep|;
      |j| >= n && j[|j| - n..] == sep + xs[|xs| - 1]
  {
    var last := xs[|xs| - 1];
    var front := xs[..|xs| - 1];
    assert xs == front + [last];
    JoinAppend(front, last, sep);
    var a, b := Join(front, sep), sep + last;
    assert Join(xs, sep) == a + b;
    SplitConcat(a, b);
  }



  /** Joining non-empty words with single spaces and splitting again gives
      the same words back. */
  lemma {:induction false} WordsOfJoin(ws: seq<string>)
    requires AllWords(ws)
    ensures Words(Join(ws, " ")) == ws
    decreases |ws|
  {
    if |ws| == 0 {
      assert Words("") == [];
    } else if |ws| == 1 {
      WordsOfWord(ws[0]);
    } else {
      var tail := ws[1..];
      WordsOfJoin(tail);
      WordsOfJoinStep(ws[0], tail);
      assert [ws[0]] + tail == ws;
    }
  }

  lemma WordsOfWord(w: string)
    requires IsWord(w)
    ensures Words(w) == [w]
  {
    WordsCons(w, "");
    assert w + "" == w;
    assert Words("") == [];
  }

  lemma WordsOfJoinStep(w: string, tail: seq<string>)
    requires IsWord(w) && |tail| > 0
    requires Words(Join(tail, " ")) == tail
    ensures Words(Join([w] + tail, " ")) == [w] + tail
  {
    var rest := Join(tail, " ");
    var ws := [w] + tail;
    assert ws[1..] == tail;
    assert ws[0] == w;
    assert Join(ws, " ") == w + (" " + rest);
    WordsCons(w, " " + rest);
    WordsAfterSpace(rest);
  }

  lemma WordsCons(w: string, rest: string)
    requires IsWord(w)
    requires |rest| == 0 || IsSpace(rest[0])
    ensures Words(w + rest) == [w] + Words(rest)
  {
    var s := w + rest;
    TrimStartOfClean(s);
    WordLenOfWord(w, rest);
    assert s[..|w|] == w;
    assert s[|w|..] == rest;
  }

  lemma WordsAfterSpace(s: string)
    ensures Words(" " + s) == Words(s)
  {
    assert (" " + s)[1..] == s;
  }

  lemma {:induction false} WordLenOfWord(w: string, rest: string)
    requires NoSpace(w)
    requires |rest| == 0 || IsSpace(rest[0])
    ensures WordLen(w + rest) == |w|
    decreases |w|
  {
    if |w| > 0 {
      assert (w + rest)[1..] == w[1..] + rest;
      WordLenOfWord(w[1..], rest);
    } else {
      assert w + rest == rest;
    }
  }
}

=== FILE: time.dfy ===
/** The clock arithmetic of docs/demo-formatter.js: minutes since midnight
    from a 12-hour reading, the five-character `hhmmA` token, and the short
    form of that token printed on an itinerary line. */
module GdsTime {
  import opened Text

  /** JavaScript's `%`: the remainder takes the sign of the dividend. */
  function JsRem(a: int, b: int): int
    requires b != 0
  {
    var m := if b < 0 then -b else b;
    if a >= 0 then a % m else -((-a) % m)
  }

  /** `((mins % 1440) + 1440) % 1440` with JavaScript's `%`, which is the
      mathematical (non-negative) residue of any integer. */
  function NormalizeMinutes(mins: int): (n: int)
    ensures 0 <= n < 1440
    ensures n == mins % 1440
  {
    var r := JsRem(mins, 1440);
    if mins < 0 then
      NegativeResidue(-mins);
      JsRem(r + 1440, 1440)
    else
      JsRem(r + 1440, 1440)
  }

  lemma NegativeResidue(a: int)
    requires a >= 0
    ensures ((-(a % 1440)) + 1440) % 1440 == (-a) % 1440
  {
    var q := a / 1440;
    var y := a % 1440;
    assert a == q * 1440 + y;
    if y == 0 {
      assert -a == (-q) * 1440;
    } else {
      assert -a == (-q - 1) * 1440 + (1440 - y);
    }
  }

  /** The hour a 12-hour clock shows for a 24-hour hour: 0 and 12 show 12. */
  function ClockHour(h24: nat): (h: nat)
    ensures 1 <= h <= 12 && h % 12 == h24 % 12
  {
    if h24 % 12 == 0 then 12 else h24 % 12
  }

  /** The period letter of a minute of the day. */
  function PeriodLetter(n: int): char {
    if n >= 720 then 'P' else 'A'
  }

  /** `minutesToGds`: the time of day `mins` falls on (any integer, wrapped
      into one day) as a zero-padded 12-hour hour, a zero-padded minute and
      the period letter. */
  function MinutesToGds(mins: int): (r: string)
    ensures |r| == 5
    ensures r[..2] == Pad2(ClockHour(mins % 1440 / 60))
    ensures r[2..4] == Pad2(mins % 60)
    ensures r[4] == PeriodLetter(mins % 1440)
  {
    var normalized := NormalizeMinutes(mins);
    var hour := normalized / 60;
    var minute := JsRem(normalized, 60);
    var period := if hour >= 12 then 'P' else 'A';
    var hourToken := JsRem(hour, 12);
    var hourToken' := if hourToken == 0 then 12 else hourToken;
    assert minute == mins % 60 by {
      ModOfModDay(mins);
    }
    assert hourToken' == ClockHour(hour);
    var r := Pad2(hourToken') + Pad2(minute) + [period];
    assert r[..2] == Pad2(hourToken');
    assert r[2..4] == Pad2(minute);
    r
  }

  lemma ModOfModDay(mins: int)
    ensures mins % 1440 % 60 == mins % 60
  {
    var q := mins / 1440;
    assert mins == q * 1440 + mins % 1440;
    assert mins == (q * 24) * 60 + mins % 1440;
  }

  lemma Split5(r: string)
    requires |r| == 5
    ensures r == r[..2] + r[2..4] + [r[4]]
  {
  }

  /** Read back as numbers, the fields of the token are a 12-hour hour that
      agrees with the 24-hour hour modulo 12, and the minute of the hour. */
  lemma MinutesToGdsFields(mins: int)
    ensures var r := MinutesToGds(mins);
      && AllDigits(r[..2]) && AllDigits(r[2..4])
      && 1 <= DigitsValue(r[..2]) <= 12
      && DigitsValue(r[..2]) % 12 == (mins % 1440 / 60) % 12
      && DigitsValue(r[2..4]) == mins % 60
      && (r[4] == 'P' <==> mins % 1440 >= 720)
      && (r[4] == 'A' <==> mins % 1440 < 720)
  {
  }

  /** Midnight is `1200A`, noon is `1200P`, and a minute before midnight
      wraps to `1159P`. */
  lemma MidnightAndNoon()
    ensures MinutesToGds(0) == "1200A"
    ensures MinutesToGds(720) == "1200P"
    ensures MinutesToGds(-1) == "1159P"
  {
    Midnight();
    Noon();
    MinuteBeforeMidnight();
  }

  lemma Midnight()
    ensures MinutesToGds(0) == "1200A"
  {
    Split5(MinutesToGds(0));
  }

  lemma Noon()
    ensures MinutesToGds(720) == "1200P"
  {
    Split5(MinutesToGds(720));
  }

  lemma MinuteBeforeMidnight()
    ensures MinutesToGds(-1) == "1159P"
  {
    assert -1 % 1440 == 1439 && -1 % 60 == 59 && 1439 / 60 == 23;
    Split5(MinutesToGds(-1));
  }

  /** Tokens repeat every day: whole days added to the input change nothing. */
  lemma MinutesToGdsPeriodic(mins: int, days: int)
    ensures MinutesToGds(mins + days * 1440) == MinutesToGds(mins)
  {
    var m := mins + days * 1440;
    assert m % 1440 == mins % 1440;
    assert m % 60 == mins % 60 by {
      assert m == mins + (days * 24) * 60;
    }
    Split5(MinutesToGds(m));
    Split5(MinutesToGds(mins));
  }

  /** The minutes-since-midnight closure of `getZonedDateTimeParts`, after
      the hour and minute have been parsed: `PM` adds twelve hours to
      `hour % 12`, and `12 AM` is hour zero. */
  function TwelveHourToMinutes(hour: int, minute: int, period: string): (m: int)
    ensures 1 <= hour <= 12 && 0 <= minute <= 59 && (period == "AM" || period == "PM") ==>
      && 0 <= m < 1440
      && m % 60 == minute
      && (m >= 720 <==> period == "PM")
      && ClockHour(m / 60) == hour
  {
    var hh := JsRem(hour, 12);
    var hh' := if period == "PM" then hh + 12 else hh;
    var hh'' := if period == "AM" && hour == 12 then 0 else hh';
    if 1 <= hour <= 12 && 0 <= minute <= 59 && (period == "AM" || period == "PM") then
      DivMod60(hh'', minute);
      hh'' * 60 + minute
    else
      hh'' * 60 + minute
  }

  lemma DivMod60(h: int, m: int)
    requires 0 <= m < 60
    ensures (h * 60 + m) / 60 == h && (h * 60 + m) % 60 == m
  {
  }

  /** A 12-hour reading survives the trip through minutes since midnight:
      `minutesToGds` gives back the padded hour, the minute and the period
      letter. */
  lemma TwelveHourRoundTrip(hour: int, minute: int, period: string)
    requires 1 <= hour <= 12 && 0 <= minute <= 59
    requires period == "AM" || period == "PM"
    ensures MinutesToGds(TwelveHourToMinutes(hour, minute, period))
         == Pad2(hour) + Pad2(minute) + [if period == "PM" then 'P' else 'A']
  {
    var m := TwelveHourToMinutes(hour, minute, period);
    assert m % 1440 == m;
    Split5(MinutesToGds(m));
  }

  // -----------------------------------------------------------------------
  // formatGdsTime

  predicate IsPeriodLetter(c: char) {
    c == 'A' || c == 'P' || c == 'a' || c == 'p'
  }

  /** `/^00(\d{2}[AP])$/i`: a token whose hour is written `00`. */
  predicate IsZeroHourToken(t: string) {
    |t| == 5 && t[0] == '0' && t[1] == '0' && IsDigit(t[2]) && IsDigit(t[3]) && IsPeriodLetter(t[4])
  }

  /** `formatGdsTime`: trims the token, writes a `00` hour as `12`, and
      otherwise drops the leading zeros of the hour. */
  function FormatGdsTime(value: string): (r: string)
    ensures value == "" ==> r == ""
  {
    if value == "" then ""
    else
      var t := Trim(value);
      if IsZeroHourToken(t) then "12" + t[2..]
      else StripLeadingZeros(t)
  }

  lemma FormatGdsTimeTrimmed(value: string)
    ensures IsTrimmed(FormatGdsTime(value))
  {
    if value != "" {
      var t := Trim(value);
      if IsZeroHourToken(t) {
        NoonTokenTrimmed(t);
      } else {
        StripLeadingZerosTrimmed(t);
      }
    }
  }

  lemma NoonTokenTrimmed(t: string)
    requires IsZeroHourToken(t)
    ensures IsTrimmed("12" + t[2..])
  {
    var r := "12" + t[2..];
    assert r[0] == '1' && r[4] == t[4];
    DigitNotSpace('1');
    PeriodLetterNotSpace(t[4]);
  }

  lemma PeriodLetterNotSpace(c: char)
    requires IsPeriodLetter(c)
    ensures !IsSpace(c)
  {
  }

  /** A `00` hour is written `12`. */
  lemma ZeroHourBecomesNoon()
    ensures FormatGdsTime("0015A") == "1215A"
  {
    var a := "0015A";
    TrimOfTrimmed(a);
    assert IsZeroHourToken(a);
    assert a[2..] == "15A";
  }

  /** A padded hour loses its leading zero. */
  lemma PaddedHourLosesZero()
    ensures FormatGdsTime("0950P") == "950P"
  {
    var b := "0950P";
    TrimOfTrimmed(b);
    assert !IsZeroHourToken(b);
    assert b[1..] == "950P";
    assert ZeroRun(b[1..]) == 0;
    assert ZeroRun(b) == 1;
  }

  /** A trimmed token that does not open with `0` passes through as it is,
      whatever its length or the case of its period letter. */
  lemma UnpaddedTokenKept(t: string)
    requires t != "" && IsTrimmed(t) && t[0] != '0'
    ensures FormatGdsTime(t) == t
  {
    TrimOfTrimmed(t);
    assert !IsZeroHourToken(t);
    assert ZeroRun(t) == 0;
  }

  /** The token printed for a time of day: the hour without padding, then the
      padded minute and the period letter, four or five characters in all. */
  lemma ShortTokenOfMinutes(mins: int)
    ensures FormatGdsTime(MinutesToGds(mins))
         == NatToString(ClockHour(mins % 1440 / 60)) + Pad2(mins % 60) + [PeriodLetter(mins % 1440)]
    ensures 4 <= |FormatGdsTime(MinutesToGds(mins))| <= 5
    ensures FormatGdsTime(MinutesToGds(mins))[0] != '0'
  {
    var h := ClockHour(mins % 1440 / 60);
    var tail := Pad2(mins % 60) + [PeriodLetter(mins % 1440)];
    var r := MinutesToGds(mins);
    Split5(r);
    assert r == Pad2(h) + tail;
    if h < 10 {
      ShortTokenOneDigit(h, tail);
    } else {
      ShortTokenTwoDigits(h, tail);
    }
  }

  lemma ShortTokenOneDigit(h: nat, tail: string)
    requires 1 <= h < 10
    requires |tail| == 3 && (tail[2] == 'A' || tail[2] == 'P')
    ensures FormatGdsTime(Pad2(h) + tail) == NatToString(h) + tail
    ensures NatToString(h)[0] != '0'
  {
    OneDigitHour(h);
    OneDigitToken(DigitChar(h), tail);
  }

  lemma OneDigitHour(h: nat)
    requires 1 <= h < 10
    ensures Pad2(h) == ['0', DigitChar(h)] && NatToString(h) == [DigitChar(h)]
  {
  }

  lemma OneDigitToken(d: char, tail: string)
    requires IsDigit(d) && d != '0'
    requires |tail| == 3 && (tail[2] == 'A' || tail[2] == 'P')
    ensures FormatGdsTime(['0', d] + tail) == [d] + tail
  {
    var s := ['0', d] + tail;
    assert Trim(s) == s by {
      TokenIsTrimmed(['0', d], tail);
    }
    assert FormatGdsTime(s) == StripLeadingZeros(s) by {
      FormatGdsTimeOfPlain(s);
    }
    assert StripLeadingZeros(s) == [d] + tail by {
      StripOneZero(d, tail);
    }
  }

  lemma ShortTokenTwoDigits(h: nat, tail: string)
    requires 10 <= h <= 12
    requires |tail| == 3 && (tail[2] == 'A' || tail[2] == 'P')
    ensures FormatGdsTime(Pad2(h) + tail) == NatToString(h) + tail
    ensures NatToString(h)[0] != '0'
  {
    NatToStringTwoDigits(h);
    TwoDigitToken(Pad2(h), tail);
  }

  lemma TwoDigitToken(hh: string, tail: string)
    requires |hh| == 2 && AllDigits(hh) && hh[0] == '1'
    requires |tail| == 3 && (tail[2] == 'A' || tail[2] == 'P')
    ensures FormatGdsTime(hh + tail) == hh + tail
  {
    var s := hh + tail;
    TokenIsTrimmed(hh, tail);
    assert s[0] == '1';
    FormatGdsTimeOfPlain(s);
    assert ZeroRun(s) == 0;
  }

  /** A trimmed token whose hour is not `00` only loses its leading zeros. */
  lemma FormatGdsTimeOfPlain(s: string)
    requires s != "" && Trim(s) == s
    requires s[0] != '0' || (|s| > 1 && s[1] != '0')
    ensures FormatGdsTime(s) == StripLeadingZeros(s)
  {
  }

  lemma NatToStringTwoDigits(h: nat)
    requires 10 <= h < 100
    ensures NatToString(h) == Pad2(h)
    ensures h < 20 ==> Pad2(h)[0] == '1'
  {
    assert NatToString(h) == NatToString(h / 10) + [DigitChar(h % 10)];
    assert Pad2(h)[0] == DigitChar(h / 10);
  }

  lemma StripOneZero(d: char, tail: string)
    requires IsDigit(d) && d != '0'
    ensures StripLeadingZeros(['0', d] + tail) == [d] + tail
  {
    var s := ['0', d] + tail;
    assert s[1..] == [d] + tail;
    assert ZeroRun(s) == 1;
  }

  lemma TokenIsTrimmed(hh: string, tail: string)
    requires |hh| == 2 && AllDigits(hh)
    requires |tail| == 3 && (tail[2] == 'A' || tail[2] == 'P')
    ensures Trim(hh + tail) == hh + tail
  {
    var r := hh + tail;
    assert r[0] == hh[0] && r[4] == tail[2];
    TrimOfTrimmed(r);
  }

  /** Applying `formatGdsTime` twice is the same as applying it once. */
  lemma FormatGdsTimeIdempotent(value: string)
    ensures FormatGdsTime(FormatGdsTime(value)) == FormatGdsTime(value)
  {
    var r := FormatGdsTime(value);
    if r != "" {
      FormatGdsTimeTrimmed(value);
      TrimOfTrimmed(r);
      var t := Trim(value);
      if IsZeroHourToken(t) {
        IdempotentOnNoonToken(t);
      } else {
        IdempotentOnStripped(t);
      }
    }
  }

  lemma IdempotentOnNoonToken(t: string)
    requires IsZeroHourToken(t)
    ensures var r := "12" + t[2..]; !IsZeroHourToken(r) && StripLeadingZeros(r) == r
  {
  }

  lemma IdempotentOnStripped(t: string)
    requires !IsZeroHourToken(t)
    ensures var r := StripLeadingZeros(t); !IsZeroHourToken(r) && StripLeadingZeros(r) == r
  {
    StripLeadingZerosIdempotent(t);
  }
}

=== FILE: zoned.dfy ===
/** `getZonedDateTimeParts`, `calculateArrivalOffset` and `formatDateToken`
    of docs/demo-formatter.js, downstream of `Intl.DateTimeFormat`: the
    formatter's text parts are an input, everything after them is modelled. */
module GdsZoned {
  import opened Options
  import opened Text
  import opened GdsTime
  import opened GdsCalendar

  /** What `formatToParts` yields for one instant in one time zone, keyed by
      part type (an absent part is the empty string), together with the two
      display strings the other two formatters produce. */
  datatype WallClock = WallClock(
    year: string,
    month: string,
    day: string,
    weekday: string,
    hour: string,
    minute: string,
    dayPeriod: string,
    displayTime: string,
    displayDate: string)

  /** The record `getZonedDateTimeParts` returns, without the `Date` object. */
  datatype ZonedParts = ZonedParts(
    month: string,
    day: string,
    weekday: string,
    dowCode: string,
    gdsTime: string,
    displayTime: string,
    displayDate: string,
    minutesSinceMidnight: Option<int>,
    year: Option<int>,
    monthIndex: Option<nat>,
    dayNumber: Option<int>)

  /** An ISO string as `new Date(iso)` reads it: missing or empty (falsy),
      present but not a date (`NaN`), or an instant in milliseconds. */
  datatype IsoInstant = Missing | Invalid | At(ms: int)

  /** The minutes-since-midnight closure: `NaN` in either field gives
      `null`, otherwise the 12-hour reading with `period`. */
  function MinutesOfClock(hour: Option<int>, minute: Option<int>, period: string): (m: Option<int>)
    ensures m.Some? <==> hour.Some? && minute.Some?
    ensures m.Some? && 1 <= hour.value <= 12 && 0 <= minute.value <= 59
            && (period == "AM" || period == "PM")
            ==> 0 <= m.value < 1440 && m.value % 60 == minute.value
  {
    if hour.None? || minute.None? then None
    else Some(TwelveHourToMinutes(hour.value, minute.value, period))
  }

  /** `getZonedDateTimeParts` from the formatter's parts: three-letter
      upper-cased month and weekday, the weekday code, the `hhmmA` token
      (empty when the clock could not be read), and the numeric fields. */
  function ZonedPartsOf(c: WallClock): (p: ZonedParts)
    ensures |p.month| <= 3 && |p.weekday| <= 3
    ensures p.day == c.day && p.displayTime == c.displayTime && p.displayDate == c.displayDate
    ensures p.dowCode == "" <==> p.weekday !in Weekdays
    ensures p.gdsTime == "" <==> p.minutesSinceMidnight.None?
    ensures p.minutesSinceMidnight.Some? ==> |p.gdsTime| == 5
    ensures p.monthIndex.Some? ==> p.monthIndex.value < 12 && Months[p.monthIndex.value] == p.month
    ensures p.dayNumber.Some? ==> c.day != ""
  {
    var month := ToUpper(Take(c.month, 3));
    var weekday := ToUpper(Take(c.weekday, 3));
    var hour := ParseInt(if c.hour == "" then "0" else c.hour);
    var minute := ParseInt(if c.minute == "" then "0" else c.minute);
    var minutes := MinutesOfClock(hour, minute, ToUpper(c.dayPeriod));
    ZonedParts(
      month := month,
      day := c.day,
      weekday := weekday,
      dowCode := DowCode(weekday),
      gdsTime := if minutes.Some? then MinutesToGds(minutes.value) else "",
      displayTime := c.displayTime,
      displayDate := c.displayDate,
      minutesSinceMidnight := minutes,
      year := ParseInt(c.year),
      monthIndex := MonthIndex(month),
      dayNumber := if c.day == "" then None else ParseInt(c.day))
  }

  /** A clock as `Intl` prints it, a two-digit hour from 01 to 12, a
      two-digit minute and AM or PM, comes out as the same reading in
      `hhmmA` form. */
  lemma ZonedTimeToken(c: WallClock, h: nat, m: nat)
    requires 1 <= h <= 12 && m <= 59
    requires c.hour == Pad2(h) && c.minute == Pad2(m)
    requires ToUpper(c.dayPeriod) == "AM" || ToUpper(c.dayPeriod) == "PM"
    ensures ZonedPartsOf(c).gdsTime
         == Pad2(h) + Pad2(m) + [if ToUpper(c.dayPeriod) == "PM" then 'P' else 'A']
  {
    ParseIntOfPad2(h);
    ParseIntOfPad2(m);
    TwelveHourRoundTrip(h, m, ToUpper(c.dayPeriod));
  }

  // -----------------------------------------------------------------------
  // calculateArrivalOffset

  /** Year, month index and day number are all usable. */
  predicate HasDate(p: ZonedParts) {
    p.year.Some? && p.monthIndex.Some? && p.dayNumber.Some?
  }

  /** The day number `Date.UTC` gives the parts' date, `None` for `NaN`. */
  function DayOfParts(p: ZonedParts): Option<int>
    requires HasDate(p)
  {
    UtcDay(p.year.value, p.monthIndex.value, p.dayNumber.value)
  }

  /** The token for a difference that may be `NaN`. */
  function DiffToken(from: Option<int>, to: Option<int>): (t: string)
    ensures from.Some? && to.Some? ==> t == OffsetToken(to.value - from.value)
    ensures from.None? || to.None? ==> t == "NaN"
  {
    if from.None? || to.None? then "NaN" else OffsetToken(to.value - from.value)
  }

  /** `calculateArrivalOffset`: the difference in calendar days between the
      two wall-clock dates when both are complete, otherwise, when both
      instants are given, the rounded difference of the two or `NaN` when
      either does not parse, otherwise nothing. */
  function CalculateArrivalOffset(dep: Option<ZonedParts>, arr: Option<ZonedParts>,
                                  depIso: IsoInstant, arrIso: IsoInstant): (t: string)
    ensures dep.Some? && arr.Some? && HasDate(dep.value) && HasDate(arr.value)
            ==> t == DiffToken(DayOfParts(dep.value), DayOfParts(arr.value))
    ensures !(dep.Some? && arr.Some? && HasDate(dep.value) && HasDate(arr.value))
            && depIso.At? && arrIso.At?
            ==> t == OffsetToken(RoundDays(arrIso.ms - depIso.ms))
    ensures !(dep.Some? && arr.Some? && HasDate(dep.value) && HasDate(arr.value))
            && !depIso.Missing? && !arrIso.Missing? && (depIso.Invalid? || arrIso.Invalid?)
            ==> t == "NaN"
    ensures !(dep.Some? && arr.Some? && HasDate(dep.value) && HasDate(arr.value))
            && (depIso.Missing? || arrIso.Missing?)
            ==> t == ""
  {
    if dep.Some? && arr.Some? && HasDate(dep.value) && HasDate(arr.value) then
      DiffToken(DayOfParts(dep.value), DayOfParts(arr.value))
    else if !depIso.Missing? && !arrIso.Missing? then
      if depIso.Invalid? || arrIso.Invalid? then "NaN"
      else OffsetToken(RoundDays(arrIso.ms - depIso.ms))
    else ""
  }

  /** With complete dates, swapping departure and arrival flips the sign of
      the offset. */
  lemma ArrivalOffsetSwap(dep: ZonedParts, arr: ZonedParts, depIso: IsoInstant, arrIso: IsoInstant)
    requires HasDate(dep) && HasDate(arr)
    ensures CalculateArrivalOffset(Some(arr), Some(dep), arrIso, depIso)
         == FlipSign(CalculateArrivalOffset(Some(dep), Some(arr), depIso, arrIso))
  {
    var a := DayOfParts(dep);
    var b := DayOfParts(arr);
    if a.Some? && b.Some? {
      OffsetTokenNegate(b.value - a.value);
      assert a.value - b.value == -(b.value - a.value);
    }
  }

  /** The calendar date after `(y, m, d)`, with `m` a month index. */
  function NextDate(y: int, m: int, d: int): (r: (int, int, int))
    requires 0 <= m < 12 && 1 <= d <= DaysInMonth(y, m)
    ensures 0 <= r.1 < 12 && 1 <= r.2 <= DaysInMonth(r.0, r.1)
  {
    if d < DaysInMonth(y, m) then (y, m, d + 1)
    else if m < 11 then (y, m + 1, 1)
    else (y + 1, 0, 1)
  }

  /** For dates from the year 100 on, within the `Date` range, the day
      count is the civil day number. */
  lemma DayOfPartsIsCivil(p: ZonedParts)
    requires HasDate(p) && p.year.value >= 100 && p.monthIndex.value < 12
    requires -100000000 <= CivilDay(p.year.value, p.monthIndex.value, p.dayNumber.value) <= 100000000
    ensures DayOfParts(p) == Some(CivilDay(p.year.value, p.monthIndex.value, p.dayNumber.value))
  {
    var m := p.monthIndex.value;
    assert m / 12 == 0 && m % 12 == m;
  }

  /** An arrival on the calendar day after the departure is `+1`, whether
      the month or the year turns over in between. */
  lemma ArrivalNextDay(dep: ZonedParts, arr: ZonedParts, depIso: IsoInstant, arrIso: IsoInstant)
    requires HasDate(dep) && HasDate(arr) && dep.monthIndex.value < 12
    requires 100 <= dep.year.value < 200000 && 1 <= dep.dayNumber.value <= DaysInMonth(dep.year.value, dep.monthIndex.value)
    requires (arr.year.value, arr.monthIndex.value, arr.dayNumber.value)
          == NextDate(dep.year.value, dep.monthIndex.value, dep.dayNumber.value)
    ensures CalculateArrivalOffset(Some(dep), Some(arr), depIso, arrIso) == "+1"
  {
    var y, m, d := dep.year.value, dep.monthIndex.value, dep.dayNumber.value;
    NextDateCivil(y, m, d);
    CivilDayRange(y, m, d);
    CivilDayRange(arr.year.value, arr.monthIndex.value, arr.dayNumber.value);
    DayOfPartsIsCivil(dep);
    DayOfPartsIsCivil(arr);
    OffsetOfOneDay(dep, arr, depIso, arrIso);
  }

  /** The day after a date is the next civil day number. */
  lemma NextDateCivil(y: int, m: int, d: int)
    requires 0 <= m < 12 && 1 <= d <= DaysInMonth(y, m)
    ensures var n := NextDate(y, m, d); CivilDay(n.0, n.1, n.2) == CivilDay(y, m, d) + 1
  {
    if d == DaysInMonth(y, m) {
      if m < 11 {
        MonthRollover(y, m);
      } else {
        YearRollover(y);
      }
    }
  }

  lemma OffsetOfOneDay(dep: ZonedParts, arr: ZonedParts, depIso: IsoInstant, arrIso: IsoInstant)
    requires HasDate(dep) && HasDate(arr)
    requires DayOfParts(dep).Some? && DayOfParts(arr).Some?
    requires DayOfParts(arr).value == DayOfParts(dep).value + 1
    ensures CalculateArrivalOffset(Some(dep), Some(arr), depIso, arrIso) == "+1"
  {
    assert OffsetToken(1) == "+1";
  }

  /** Days from the years 100 to 200000 stay inside the `Date` range. */
  lemma CivilDayRange(y: int, m: int, d: int)
    requires 100 <= y <= 200000 && 0 <= m < 12 && 1 <= d <= 31
    ensures -100000000 <= CivilDay(y, m, d) <= 100000000
  {
  }

  // -----------------------------------------------------------------------
  // formatDateToken

  /** `formatDateToken`: `DDMMM W` with the weekday code after a space when
      all three are known, `DDMMM` without a code, otherwise whichever of
      day and month is present. */
  function FormatDateToken(p: Option<ZonedParts>): (t: string)
    ensures p.None? ==> t == ""
    ensures p.Some? && p.value.day != "" && p.value.month != "" && p.value.dowCode != ""
            ==> t == Join([p.value.day + p.value.month, p.value.dowCode], " ")
    ensures p.Some? && p.value.day != "" && p.value.month != "" && p.value.dowCode == ""
            ==> t == p.value.day + p.value.month
    ensures p.Some? && (p.value.day == "" || p.value.month == "") ==> t == p.value.day + p.value.month
  {
    if p.None? then ""
    else
      var q := p.value;
      if q.day != "" && q.month != "" && q.dowCode != "" then
        JoinTwo(q.day + q.month, q.dowCode, " ");
        q.day + q.month + " " + q.dowCode
      else if q.day != "" && q.month != "" then q.day + q.month
      else if q.day != "" then q.day
      else q.month
  }

  /** A token with a weekday code splits back into the date and the code. */
  lemma DateTokenWords(p: ZonedParts)
    requires p.day != "" && p.month != ""
    requires IsWord(p.day + p.month) && IsWord(p.dowCode)
    ensures Words(FormatDateToken(Some(p))) == [p.day + p.month, p.dowCode]
  {
    var ws := [p.day + p.month, p.dowCode];
    assert ws[1..] == [p.dowCode];
    assert AllWords(ws[1..][1..]);
    WordsOfJoin(ws);
  }
}
